=== FILE: README.md ===
# boot-python, modelled in Dafny

boot-python is a plugin that the `boot-code` host launches as a child
process. It starts a gRPC server on the IPv4 loopback and announces the
address on stdout with the line `1|1|tcp|HOST:PORT|grpc`. It then answers
one remote call, `GetPromptComponents`. The answer holds the prompt
templates it finds on disk, plus a one-sentence summary of the user's
`spec.toml`.

The repository ships three variants of this code:

- `src/` (`src/server.py`, `src/main.py`);
- `src/boot_python/`;
- the top-level `boot_python/` package.

They differ in observable details, so each is modelled in its own module:

| module | source file |
|---|---|
| `SrcServer` | `src/server.py` |
| `SrcBootServer` | `src/boot_python/server.py` |
| `BootServer` | `boot_python/server.py` |
| `SrcMain` | `src/main.py` |
| `SrcBootMain` | `src/boot_python/main.py` |
| `BootMain` | `boot_python/main.py` |

They share these modules:

- `PyRuntime`:
  - `Option` and `Result`;
  - the Python exceptions involved;
  - string prefix, suffix and substring tests;
  - `str()` of a non-negative integer, with its inverse.
- `TomlValue`: a parsed TOML value kept abstract (string, table, anything else), with `dict.get` and f-string formatting. The TOML parser itself is a parameter: `Parser = string -> Result<Value, Exception>`.
- `PromptFiles`: the prompts directory as an abstract listing. It is either missing, or an ordered sequence of entries. Each entry is a regular file, whose read yields text or raises, or something else.
- `Rpc`: the request, the response record `{components, userSpecPrompt}`, the status code, and the outcome of one handler call. The outcome is either a reply, or an exception escaping the handler.
- `Summary`: the composed sentence and the fixed fallback sentence of the two `boot_python` summarisers.
- `Handshake`: the handshake line as a function of host and port, and a reference reader of that line (the host's own parser is not part of this model). The two are proved inverse in both directions.
- `Lifecycle`: a run of a `main` as a trace of events, with a run environment `Env`. The `Env` fixes:
  - the port the OS hands out;
  - whether re-binding a probed port works;
  - the check flag and the environment variable;
  - the signals delivered during each 0.2 s poll;
  - whether `server.stop` raises, and what: the same for every `stop` call of the run, in a signal handler or not.
  
  A small state machine (`Step`, `Replay`, `Conforms`) fixes the handshake protocol. A conforming run binds a loopback address once and starts the server only on a non-zero port. It writes at most one stdout line, the handshake naming that port. It returns cleanly only after it has written the handshake and stopped the server.

## Model

| member | source | states |
|---|---|---|
| PyRuntime.DecimalString | src/main.py:46 | `str(port)` is a non-empty digit string with no leading zero, one digit long exactly below 10 |
| PyRuntime.DecimalRoundTrip | boot_python/main.py:17 | reading back the decimal text of a port gives the port |
| PyRuntime.CanonicalDecimalRoundTrip | boot_python/main.py:17 | every canonical digit string is the text of exactly the number it denotes, so no other port text exists |
| PromptFiles.Lookup | src/boot_python/server.py:30-31 | `dir / name` exists exactly when the listing has an entry of that name, and then refers to that entry |
| Summary.SentenceIsNeverFallback | src/boot_python/server.py:49-52 | a composed summary is never the fallback sentence, whatever the fields |
| Summary.SentenceMentionsFields | boot_python/server.py:40 | language, name and description all appear in the composed sentence |
| SrcBootServer.LoadNames | src/boot_python/server.py:29-34 | the load succeeds iff every whitelisted path is missing or a readable file. On success a name is a key iff its file exists, and its value is the file's text. On failure the error is the first unreadable name's |
| SrcBootServer.DeriveUserSpecPrompt | src/boot_python/server.py:43-52 | for each parse outcome, exactly which sentence results. A parse error, a non-table top level or a non-table `project` gives the fallback. Otherwise the composed sentence, with defaults "unknown-project", "" and "python", and a missing `project` read as empty |
| SrcBootServer.LoadPrompts | src/boot_python/server.py:26-35 | succeeds iff every whitelisted path is missing or a readable file. Then a name is a key iff it is whitelisted and exists, with the file's text as value. Otherwise the error is that of the first whitelisted name that cannot be read |
| SrcBootServer.GetPromptComponents | src/boot_python/server.py:26-66 | replies OK iff every whitelisted prompt loads, with exactly the loaded prompts as components. The keys are a subset of the four names, present iff the file exists, each mapped to its file's text. The summary is that of `spec_toml_content or ""`. Otherwise the first read failure escapes the handler |
| SrcBootServer.SummaryMentionsDescription | src/boot_python/server.py:49-52 | every summary, composed or fallback, contains "Description" |
| SrcBootServer.EmptySpecIsParsed | src/boot_python/server.py:43-49 | the empty spec goes through the parser; parsed as an empty document, it gives the all-defaults sentence, not the fallback |
| SrcBootServer.AbsentSpecIsEmptySpec | src/boot_python/server.py:62 | a request without the field is answered as one carrying "" |
| BootServer.GatherTxt | boot_python/server.py:20-28 | a name is gathered iff it is a `.txt` regular file, read as text, with no failing read before it. Its value is that file's text. The enumeration is interrupted iff some `.txt` read fails |
| BootServer.LoadPrompts | boot_python/server.py:19-28 | every key ends in ".txt"; a missing package directory gives the empty map. Otherwise the result is what the enumeration gathered: a name is a key iff its `.txt` file was read before any failing read, and its value is that file's text |
| BootServer.DeriveUserSpecPrompt | boot_python/server.py:31-43 | the empty spec gives the fallback. Otherwise each parse outcome gives its sentence: defaults "(unknown)", "python", ""; a non-table top level reads as an empty project; a parse error or a non-table `project` gives the fallback |
| BootServer.GetPromptComponents | boot_python/server.py:46-57 | always replies OK. The components are exactly what `_load_prompts` returns, so only `.txt` keys. The summary is that of `spec_toml_content or ""`, and an absent field gives the fallback |
| BootServer.EmptySpecIgnoresParser | boot_python/server.py:32-33 | the empty spec yields the fallback whatever the parser would do |
| BootServer.SummaryMentionsDescription | boot_python/server.py:40-43 | every summary contains "Description" |
| BootServer.DemoSpecSummary | tests/test_server.py:8-16 | the test's `demo` spec summarises to the sentence naming "demo" in "python", which contains both |
| SrcServer.GetPromptsPath | src/server.py:33-37 | succeeds iff `prompts` is a directory, with the path of "prompts" joined onto the root (the root followed by "/prompts", or by "prompts" after a trailing slash). Otherwise FileNotFoundError "Could not find 'prompts' directory at " and that same path |
| SrcServer.MissingPromptsNamesPath | src/server.py:33-36 | the missing-directory error names exactly the path an existing directory is returned at |
| SrcServer.ScanFiles | src/server.py:78-81 | succeeds iff every regular file reads. Keys are exactly the regular files' names, each mapped to its text. A failure carries the exception of the first unreadable regular file |
| SrcServer.FormatSpecForPrompt | src/server.py:51-58 | a decode error gives the invalid-TOML notice, and any other parser exception propagates. A non-table top level or `project` raises AttributeError "'T' object has no attribute 'get'", with T the type name of the value `.get` was called on. Otherwise the header, `project.name` (default "Unnamed project") and the top-level `description` (default "No description provided."). Every result starts with the header |
| SrcServer.AssembleResponse | src/server.py:76-87 | succeeds iff the prompts directory exists, every regular file reads and the summariser does not raise. The response is then the scanned files and the summary. A missing directory fails with `get_prompts_path`'s FileNotFoundError, a failed scan with the scan's exception, and a raising summariser with its exception |
| SrcServer.GetPromptComponentsAsWritten | src/server.py:88-93 | as written, any fault in the `try` ends with NameError escaping the handler |
| SrcServer.GetPromptComponents | src/server.py:76-93 | as intended, it always replies. OK iff assembly succeeds, and the response is then the scanned files and the summary, with the keys exactly the regular files' names. Otherwise INTERNAL, details "An internal error occurred: ..." and the empty response. A missing prompts directory is INTERNAL |
| SrcServer.DecodeErrorIsNotInternal | src/server.py:56-58 | a malformed spec with readable prompts replies OK, with the invalid-TOML notice as summary |
| SrcServer.AsWrittenLosesInternalStatus | src/server.py:88-93 | with no prompts directory, the as-written handler raises NameError while the intended one replies INTERNAL |
| SrcServer.AsWrittenAgreesOnSuccess | src/server.py:76-87 | whenever assembly succeeds the two handlers give the same reply |
| Handshake.ParseLine | boot_python/main.py:17-32 | the reference reader gets back exactly the announced host and port, with or without the trailing newline |
| Handshake.ParseOnlyLines | boot_python/main.py:17 | conversely, every line the reference reader accepts is a handshake line for the address it yields |
| Handshake.SplitAddressOf | src/boot_python/main.py:35 | `host:port` splits back into host and port at the last colon |
| Lifecycle.FirstSignal | src/main.py:48-54 | a first signal exists iff some signal is delivered. It is the first signal of the earliest poll that delivers any, with every earlier poll empty |
| Lifecycle.PollUntilFlag | src/boot_python/main.py:58-60 | the loop keeps waiting iff no signal ever comes. It ends faulted only with the handler's own `stop` fault, and always does so when that `stop` raises and a signal comes |
| Lifecycle.SleepsComeFirst | boot_python/main.py:49-51 | once the flag is set nothing sleeps again: every sleep precedes every other loop event |
| Lifecycle.PollWritesNothing | boot_python/main.py:14-53 | a wait loop whose handler stays off stdout writes nothing |
| Lifecycle.ConformingTraceWritesHandshakeOnly | boot_python/main.py:14-15 | a trace the protocol accepts writes at most one stdout line, a handshake for a non-zero port |
| Lifecycle.PollConforms | boot_python/main.py:36-53 | from a serving phase a wait loop follows the protocol and has stopped the server unless still waiting |
| BootMain.BindEphemeralPort | boot_python/main.py:21-28 | succeeds iff the port is non-zero, and then has started the server; writes nothing |
| BootMain.PrintHandshake | boot_python/main.py:31-33 | writes exactly `Line(host, port) + "\n"`, which parses back to `host:port`, and ends with a flush |
| BootMain.RunServerUntilSignal | boot_python/main.py:36-53 | installs the handlers first. Returns iff a signal arrives, and then logs "boot-python stopped" last |
| BootMain.Main | boot_python/main.py:56-71 | raises iff the bind gave port 0 (RuntimeError) or check mode's `stop(0)` raises (that exception). Check mode otherwise returns. Outside check mode it returns iff a signal arrives, and is still waiting iff none does |
| BootMain.MainEventsFailedBind | boot_python/main.py:21-26 | a failed bind: the run is the bind of "127.0.0.1:0" alone, with no start and no handshake |
| BootMain.MainEventsCheckMode | boot_python/main.py:61-69 | check mode, as literal events: bind "127.0.0.1:0", start, the handshake line with its newline, flush, `stop(0)`, then the wait on it, which a raising `stop` never reaches |
| BootMain.MainEventsSignalLoop | boot_python/main.py:61-71 | outside check mode, as literal events: the same bind, start, handshake and flush, then the handlers are installed and the signal loop runs |
| BootMain.MainWritesHandshakeOnce | boot_python/main.py:24-62 | stdout is the newline-terminated handshake once, or nothing when the bind fails |
| BootMain.MainStartsBeforeHandshake | boot_python/main.py:27-62 | `server.start()` precedes the handshake write |
| BootMain.CheckModeSkipsWaitLoop | boot_python/main.py:65-69 | check mode never installs handlers or sleeps. It ends with `stop(0)` followed by waiting for it, or with `stop(0)` alone when that raises |
| BootMain.WaitEndsAtFirstSignal | boot_python/main.py:49-71 | outside check mode the handlers are installed and polling stops once a signal is handled |
| BootMain.StopFaultsAreHarmless | boot_python/main.py:41-44 | outside check mode, where `stop` is only called inside the handler's `try`, a raising `stop` changes nothing about the run |
| BootMain.MainConforms | boot_python/main.py:56-71 | every run follows the handshake protocol, and a clean return has written the handshake and stopped the server |
| SrcBootMain.PickLoopbackPort | src/boot_python/main.py:18-23 | the probe yields the loopback host and the OS's port, and writes nothing |
| SrcBootMain.AfterStart | src/boot_python/main.py:41-62 | fast exit calls `stop` without installing handlers, and returns, or raises that `stop`'s fault before the "stopped" log. The wait loop installs the handlers first, and raises the `stop` fault once a signal comes. Every other finished run logs "boot-python stopped" last |
| SrcBootMain.Main | src/boot_python/main.py:26-62 | fast exit returns, or raises the `stop` fault. Otherwise it keeps waiting iff no signal comes; on a signal it returns when `stop` does not raise and raises the `stop` fault when it does. Any raised exception is that fault. "boot-python stopped" is logged last except on a fast-exit fault |
| SrcBootMain.MainWritesHandshakeOnce | src/boot_python/main.py:15-35 | stdout is exactly the handshake line, with no newline, once, and it parses back to host and port |
| SrcBootMain.HandshakeBeforeStart | src/boot_python/main.py:35-37 | every handshake write comes before every `server.start()` |
| SrcBootMain.MainStartsOnce | src/boot_python/main.py:37 | `server.start()` happens exactly once in a run |
| SrcBootMain.FastExitOnlyForOne | src/boot_python/main.py:41-45 | the signal loop is skipped iff the variable is exactly "1" |
| SrcBootMain.AnnounceServesIff | src/boot_python/main.py:28-37 | the announcement follows the protocol iff re-binding the probed port works and the port is non-zero |
| SrcBootMain.MainConformsIff | src/boot_python/main.py:26-62 | a run conforms iff the server really got the announced, non-zero port |
| SrcMain.AfterWait | src/main.py:51-54 | after SIGINT comes first it logs "Server shutting down." and calls `stop(0)`, then returns, or raises that `stop`'s fault. When SIGTERM comes first the process is killed, by SIGTERM. Still waiting iff no signal; no further start or wait |
| SrcMain.Serve | src/main.py:41-54 | binds "127.0.0.1:0" first. Returns iff SIGINT comes first and `stop` does not raise; raises the `stop` fault iff SIGINT comes first and it does; is killed iff SIGTERM comes first, and then by SIGTERM |
| SrcMain.ServeWritesHandshakeOnce | src/main.py:29-46 | stdout is the handshake line plus newline, once, parsing back to the loopback and port |
| SrcMain.HandshakeBeforeStart | src/main.py:46-49 | every handshake write comes before every `server.start()` |
| SrcMain.TestHandshakeLine | tests/test_main.py:32-33 | for port 54321 the line plus newline is exactly the stdout the test expects |
| SrcMain.ServeStartsOnce | tests/test_main.py:65-66 | `start` and `wait_for_termination` each happen exactly once |
| SrcMain.ServeTestStdout | tests/test_main.py:23-33 | with port 54321 stdout is exactly the test's expected string |
| SrcMain.ServeInterruptTail | src/main.py:52-54 | after Ctrl-C the run ends with the shutdown log and then `stop(0)` |
| SrcMain.InterruptStopsServer | tests/test_main.py:67 | SIGINT ends the run with `stop(0)` called: cleanly, or with that `stop`'s fault |
| SrcMain.MainServesOnce | src/main.py:57-61 | `main()` is one `serve()`: one start, one wait |
| SrcMain.ServeConformsIff | src/main.py:41-54 | a run conforms iff the bind gave a non-zero port; under the 0-return convention a zero port is announced anyway |

## Left out

- gRPC server construction, the thread pool, servicer registration and the protobuf classes: foreign library code. The response is the record `Rpc.Response`, and an exception escaping a handler is the outcome `Escaped`. What the gRPC runtime then sends is not modelled.
- The TOML grammar: `toml.loads` and `tomllib.loads` are the `Parser` parameter. The `text` a non-string value carries stands for Python's `str()` of it.
- The filesystem and package resources (`os.scandir`, `Path.read_text`, `importlib.resources`, `Path(__file__)`) are the abstract `Directory`. Enumeration order is the listing's order. The project root in `SrcServer.GetPromptsPath` is a parameter.
- A failure of `ir.files(...).iterdir()` itself, in boot_python/server.py, is the `Missing` directory.
- Sockets, signal delivery, `time.sleep` and the clock belong to the `Env` oracle. A failed `add_insecure_port` is modelled by the convention that it returns 0. Each element of the signal schedule lists the signals delivered during one 0.2 s poll. A run whose schedule never delivers a signal ends as `StillWaiting`, an observation of the endless wait.
- SIGTERM in src/main.py: that file installs no handler, so the default action ends the process (`Killed`). SIGINT arrives as KeyboardInterrupt only while `wait_for_termination` blocks.
- Signals that arrive before the handlers are installed are not modelled. This covers the `boot_python` variants before `signal.signal`, and src/main.py before `wait_for_termination` blocks. The schedule starts at the first poll, or at the blocking wait. An earlier signal would get Python's default handling: SIGINT raises KeyboardInterrupt wherever the process is, and SIGTERM ends it.
- Log messages are events on the trace (stderr), with their text kept only where a test or the shutdown order depends on it. Logging configuration is left out.
- A raising bind: the gRPC release the scaffold pins (create.py:49, `^1.60.0`) raises RuntimeError from `add_insecure_port` when the bind fails, instead of returning 0. Then all three entry points would raise before any handshake, and `boot_python/main.py` would never reach its own check for 0. The model keeps the 0-return convention throughout.
- SrcMain.ServeConformsIff, SrcMain.ServeWritesHandshakeOnce, SrcBootMain.MainConformsIff, SrcBootMain.MainWritesHandshakeOnce: a failed bind is described only under the 0-return convention, not for a raising bind.
- argparse parsing, including a usage error on unknown flags, is left out. The `--check` flag is a boolean in `Env`.
- In boot_python/main.py the check-mode `fut is not None` test is taken to be true: `server.stop` returns a future.
- Threads answering requests concurrently with the wait loop are not modelled. Each handler call is a pure function of the directory, the parser and the request.
- create.py: a one-shot scaffolding script, not part of the plugin.

## Differences between variants

These come from the code and are modelled as written:

- Empty specs: `src/boot_python/server.py` parses the empty spec, while `boot_python/server.py` returns the fallback at once.
- A non-table `project` value: `src/server.py` calls `.get` on it and raises AttributeError. Both `boot_python` variants give the fallback sentence instead.
- Where the description comes from: `src/server.py` reads `description` from the top level of the spec, not from `project`. For the sample spec with `[project] description = ...`, the summary therefore says "No description provided.".
- Port zero, under the convention that a failed bind returns 0:
  - `src/main.py` announces whatever port the bind returned, 0 included.
  - `src/boot_python/main.py` announces the probed port even when re-binding it fails.
  - Only `boot_python/main.py` checks for 0.
  - `SrcMain.ServeConformsIff` and `SrcBootMain.MainConformsIff` state exactly when the protocol holds.
  - With a gRPC library that raises on a failed bind instead, neither `src` variant would write a handshake; that case is listed under "Left out".
- Stop faults:
  - Inside the signal handler, a `server.stop` fault propagates in `src/boot_python/main.py`, after "boot-python stopped" is logged, but is swallowed in `boot_python/main.py`.
  - Outside any `try`, it propagates from the fast exit of `src/boot_python/main.py` (before the "stopped" log), from check mode in `boot_python/main.py`, and from the `except KeyboardInterrupt` block of `src/main.py`.

## Findings

| source | as written | input that shows it | evidently intended | confidence | as-written member | corrected member |
|---|---|---|---|---|---|---|
| src/server.py:88-93 | the `except` block calls `grpc.StatusCode.INTERNAL`, but the file never imports `grpc` (src/server.py:2-10), so it raises NameError and the exception leaves the handler | a request arriving when the `prompts` directory is missing: `get_prompts_path` raises FileNotFoundError | status INTERNAL, details "An internal error occurred: ...", and an empty response | not executed | SrcServer.GetPromptComponentsAsWritten (shown by SrcServer.AsWrittenLosesInternalStatus) | SrcServer.GetPromptComponents |


=== FILE: boot_main.dfy ===
/**
 The entry point of the top-level `boot_python` package: bind and start the
 server, then write the handshake; in check mode stop at once and wait for
 the stop, otherwise poll a stop flag that the signal handler sets.
 */
module BootMain {
  import opened PyRuntime
  import opened Handshake
  import opened Lifecycle

  /** `f"{host}:0"`: the loopback address with an OS-chosen port. */
  const EphemeralAddress := LoopbackHost + ":0"

  /** The `--check` flag, or a non-empty BOOT_PYTHON_TEST_EXIT_AFTER_HANDSHAKE. */
  predicate CheckMode(env: Env) {
    env.checkFlag || (env.exitVar.Some? && env.exitVar.value != "")
  }

  /** `_bind_ephemeral_port`: a zero port raises before the server starts. */
  function BindEphemeralPort(env: Env): (r: (seq<Event>, Result<nat, Exception>))
    ensures r.1.Success? <==> env.port != 0
    ensures r.1.Success? ==> r.1.value == env.port && Start in r.0
    ensures Writes(r.0) == []
  {
    var added := [AddPort(EphemeralAddress, env.port)];
    if env.port == 0 then (added, Failure(RuntimeError("Failed to bind gRPC port")))
    else (added + [Start], Success(env.port))
  }

  /** `_print_handshake`: the line, a newline, and a flush; the reference reader gets `host:port` back from it. */
  function PrintHandshake(host: string, port: nat): (events: seq<Event>)
    ensures Writes(events) == [Line(host, port) + "\n"]
    ensures Parse(Writes(events)[0]) == Some(Address(host, port))
    ensures events[|events| - 1] == Flush
  {
    ParseLine(host, port);
    [Stdout(Line(host, port) + "\n"), Flush]
  }

  /** The handler `_sigterm` installs: set the flag, stop the server, swallow whatever `stop` raises. */
  function OnSignal(s: Sig): seq<Event> {
    [Signal(s), Stop(None)]
  }

  /** `_run_server_until_signal`: the flag loop, then "boot-python stopped" once it ends. */
  function RunServerUntilSignal(env: Env): (r: (seq<Event>, Exit))
    ensures |r.0| > 0 && r.0[0] == InstallHandlers
    ensures r.1 == (if AnySignal(env.schedule) then Returned else StillWaiting)
    ensures r.1 == Returned ==> r.0[|r.0| - 1] == Log("boot-python stopped")
  {
    var loop := PollUntilFlag(env.schedule, OnSignal, None);
    if loop.end.Waiting? then ([InstallHandlers] + loop.events, StillWaiting)
    else ([InstallHandlers] + loop.events + [Log("boot-python stopped")], Returned)
  }

  /** The events up to and including the handshake, for a successful bind. */
  function Announce(port: nat): seq<Event> {
    [AddPort(EphemeralAddress, port), Start] + PrintHandshake(LoopbackHost, port)
  }

  /**
   The check-mode tail: `stop(0)`, then wait on what it returned. Nothing
   catches a fault of this `stop`, so it ends the run before the wait.
   */
  function CheckTail(env: Env): seq<Event> {
    if env.stopFault.None? then [Stop(Some(0)), AwaitStopped] else [Stop(Some(0))]
  }

  /**
   `main()`: a failed bind raises; check mode returns after stopping the
   server, or raises what that `stop` raised; otherwise the run returns
   exactly when a signal has arrived.
   */
  function Main(env: Env): (r: Run)
    ensures r.exit.Raised? <==> env.port == 0 || (CheckMode(env) && env.stopFault.Some?)
    ensures env.port == 0 ==> r.exit == Raised(RuntimeError("Failed to bind gRPC port"))
    ensures env.port != 0 && CheckMode(env) && env.stopFault.None? ==> r.exit == Returned
    ensures env.port != 0 && CheckMode(env) && env.stopFault.Some? ==> r.exit == Raised(env.stopFault.value)
    ensures env.port != 0 && !CheckMode(env) ==> (r.exit == Returned <==> AnySignal(env.schedule))
    ensures env.port != 0 && !CheckMode(env) ==> (r.exit == StillWaiting <==> !AnySignal(env.schedule))
  {
    var (bindEvents, bound) := BindEphemeralPort(env);
    match bound
    case Failure(e) => Run(bindEvents, Raised(e))
    case Success(port) =>
      var announced := bindEvents + PrintHandshake(LoopbackHost, port);
      if CheckMode(env) then
        match env.stopFault
        case Some(e) => Run(announced + CheckTail(env), Raised(e))
        case None => Run(announced + CheckTail(env), Returned)
      else
        var (waitEvents, exit) := RunServerUntilSignal(env);
        Run(announced + waitEvents, exit)
  }

  /** In check mode a run is the announcement followed by the check-mode tail. */
  lemma MainTraceCheck(env: Env)
    requires env.port != 0 && CheckMode(env)
    ensures Main(env).trace == Announce(env.port) + CheckTail(env)
  {
    var bound := BindEphemeralPort(env);
    assert [AddPort(EphemeralAddress, env.port)] + [Start] == [AddPort(EphemeralAddress, env.port), Start];
    assert bound.0 == [AddPort(EphemeralAddress, env.port), Start];
  }

  /** Outside check mode a run is the announcement followed by the signal loop. */
  lemma MainTraceLoop(env: Env)
    requires env.port != 0 && !CheckMode(env)
    ensures Main(env).trace == Announce(env.port) + RunServerUntilSignal(env).0
  {
    var bound := BindEphemeralPort(env);
    assert [AddPort(EphemeralAddress, env.port)] + [Start] == [AddPort(EphemeralAddress, env.port), Start];
    assert bound.0 == [AddPort(EphemeralAddress, env.port), Start];
  }

  lemma MainTrace(env: Env)
    ensures env.port != 0 && CheckMode(env) ==>
      Main(env).trace == Announce(env.port) + CheckTail(env)
    ensures env.port != 0 && !CheckMode(env) ==>
      Main(env).trace == Announce(env.port) + RunServerUntilSignal(env).0
  {
    if env.port != 0 {
      if CheckMode(env) {
        MainTraceCheck(env);
      } else {
        MainTraceLoop(env);
      }
    }
  }

  /** Splitting off the first element of a non-empty tail. */
  lemma SplitHead(a: seq<Event>, w: seq<Event>)
    requires |w| > 0
    ensures a + w == a + [w[0]] + w[1..]
  {
    assert w == [w[0]] + w[1..];
  }

  /** The announcement as literal events: bind "127.0.0.1:0", start, the handshake line, flush. */
  lemma AnnounceEvents(p: nat)
    ensures Announce(p) == [AddPort("127.0.0.1:0", p), Start, Stdout(Line("127.0.0.1", p) + "\n"), Flush]
  {
    assert EphemeralAddress == "127.0.0.1:0";
  }

  /** A failed bind: the trace of `main()` is the bind alone. */
  lemma MainEventsFailedBind(env: Env)
    requires env.port == 0
    ensures Main(env).trace == [AddPort("127.0.0.1:0", 0)]
  {
    assert EphemeralAddress == "127.0.0.1:0";
  }

  /**
   Check mode: bind, start, the handshake line, flush, `stop(0)`, and the
   wait on what it returned, which a raising `stop` never reaches.
   */
  lemma MainEventsCheckMode(env: Env)
    requires env.port != 0 && CheckMode(env)
    ensures env.stopFault.None? ==>
      Main(env).trace == [AddPort("127.0.0.1:0", env.port), Start, Stdout(Line("127.0.0.1", env.port) + "\n"), Flush,
                          Stop(Some(0)), AwaitStopped]
    ensures env.stopFault.Some? ==>
      Main(env).trace == [AddPort("127.0.0.1:0", env.port), Start, Stdout(Line("127.0.0.1", env.port) + "\n"), Flush,
                          Stop(Some(0))]
  {
    MainTrace(env);
    AnnounceEvents(env.port);
  }

  /** Outside check mode: the same announcement, then the handlers and the signal loop. */
  lemma MainEventsSignalLoop(env: Env)
    requires env.port != 0 && !CheckMode(env)
    ensures Main(env).trace == [AddPort("127.0.0.1:0", env.port), Start, Stdout(Line("127.0.0.1", env.port) + "\n"), Flush,
                                InstallHandlers] + RunServerUntilSignal(env).0[1..]
  {
    MainTraceLoop(env);
    AnnounceEvents(env.port);
    SplitHead(Announce(env.port), RunServerUntilSignal(env).0);
  }

  lemma AnnounceWrites(p: nat)
    ensures Writes(Announce(p)) == [Line(LoopbackHost, p) + "\n"]
  {
    NoStdoutNoWrites([AddPort(EphemeralAddress, p), Start]);
    WritesAppend([AddPort(EphemeralAddress, p), Start], PrintHandshake(LoopbackHost, p));
  }

  /** Nothing after the handshake writes to stdout. */
  lemma TailsWriteNothing(env: Env)
    ensures Writes(CheckTail(env)) == []
    ensures Writes(RunServerUntilSignal(env).0) == []
  {
    NoStdoutNoWrites(CheckTail(env));
    forall s: Sig
      ensures Writes(OnSignal(s)) == []
    {
      NoStdoutNoWrites(OnSignal(s));
    }
    PollWritesNothing(env.schedule, OnSignal, None);
    var loop := PollUntilFlag(env.schedule, OnSignal, None);
    WritesAppend([InstallHandlers], loop.events);
    WritesAppend([InstallHandlers] + loop.events, [Log("boot-python stopped")]);
  }

  /** Stdout receives exactly the handshake line, once, and nothing at all when binding fails. */
  lemma MainWritesHandshakeOnce(env: Env)
    ensures Writes(Main(env).trace) == (if env.port == 0 then [] else [Line(LoopbackHost, env.port) + "\n"])
  {
    if env.port != 0 {
      MainTrace(env);
      AnnounceWrites(env.port);
      TailsWriteNothing(env);
      if CheckMode(env) {
        WritesAppend(Announce(env.port), CheckTail(env));
      } else {
        WritesAppend(Announce(env.port), RunServerUntilSignal(env).0);
      }
    }
  }

  /** The server is started before the handshake is written. */
  lemma MainStartsBeforeHandshake(env: Env)
    requires env.port != 0
    ensures exists i, j :: 0 <= i < j < |Main(env).trace| && Main(env).trace[i] == Start && Main(env).trace[j].Stdout?
  {
    MainTrace(env);
    assert Main(env).trace[1] == Start && Main(env).trace[2].Stdout?;
  }

  /**
   Check mode never enters the signal loop: the run ends stopping the server
   and waiting for it, or, when that `stop` raises, with the `stop`.
   */
  lemma CheckModeSkipsWaitLoop(env: Env)
    requires env.port != 0 && CheckMode(env)
    ensures InstallHandlers !in Main(env).trace && Sleep !in Main(env).trace
    ensures env.stopFault.None? ==> Main(env).trace[|Main(env).trace| - 2..] == [Stop(Some(0)), AwaitStopped]
    ensures env.stopFault.Some? ==> Main(env).trace[|Main(env).trace| - 1] == Stop(Some(0))
  {
    MainTraceCheck(env);
    var a, t := Announce(env.port), CheckTail(env);
    assert InstallHandlers !in a && Sleep !in a;
    assert InstallHandlers !in t && Sleep !in t;
    if env.stopFault.None? {
      assert (a + t)[|a + t| - 2..] == t;
    }
  }

  /**
   Outside check mode the loop is entered, and no poll follows a handled
   signal: the first check after a signal ends the wait.
   */
  lemma WaitEndsAtFirstSignal(env: Env)
    requires env.port != 0 && !CheckMode(env)
    ensures InstallHandlers in Main(env).trace
    ensures SleepsFirst(PollUntilFlag(env.schedule, OnSignal, None).events)
  {
    MainTrace(env);
    assert Main(env).trace[|Announce(env.port)|] == InstallHandlers;
    SleepsComeFirst(env.schedule, OnSignal, None);
  }

  /**
   Failures of `server.stop` inside the signal handler are swallowed: outside
   check mode, the only place `stop` is called, they change nothing.
   */
  lemma StopFaultsAreHarmless(env: Env, fault: Option<Exception>)
    ensures !CheckMode(env) ==> Main(env.(stopFault := fault)) == Main(env)
  {
  }

  /** Bind on the loopback, start, write the handshake, flush: the server is then serving. */
  lemma ServesAfter(address: string, line: string, p: nat)
    requires p != 0 && StartsWith(address, LoopbackHost + ":") && IsHandshakeFor(line, p)
    ensures Replay(Initial, [AddPort(address, p), Start, Stdout(line), Flush]) == Some(Phase(p, true, true, false))
  {
    var serving := Phase(p, true, true, false);
    ReplayCons(serving, Flush, []);
    ReplayCons(Phase(p, true, false, false), Stdout(line), [Flush]);
    ReplayCons(Phase(p, false, false, false), Start, [Stdout(line), Flush]);
    ReplayCons(Initial, AddPort(address, p), [Start, Stdout(line), Flush]);
  }

  lemma AnnounceServes(p: nat)
    requires p != 0
    ensures Replay(Initial, Announce(p)) == Some(Phase(p, true, true, false))
  {
    assert StartsWith(EphemeralAddress, LoopbackHost + ":");
    ServesAfter(EphemeralAddress, Line(LoopbackHost, p) + "\n", p);
  }

  lemma OnSignalStops()
    ensures StopsServer(OnSignal)
  {
    forall s: Sig, q: nat, stopped: bool
      ensures Replay(Phase(q, true, true, stopped), OnSignal(s)) == Some(Phase(q, true, true, true))
    {
      var stoppedPhase := Phase(q, true, true, true);
      assert OnSignal(s)[1..] == [Stop(None)];
      assert Replay(stoppedPhase, OnSignal(s)[2..]) == Some(stoppedPhase);
      assert Replay(Phase(q, true, true, stopped), OnSignal(s)[1..]) == Some(stoppedPhase);
    }
  }

  lemma WaitConforms(env: Env, p: nat)
    ensures Replay(Phase(p, true, true, false), RunServerUntilSignal(env).0)
         == Some(Phase(p, true, true, AnySignal(env.schedule)))
  {
    var serving := Phase(p, true, true, false);
    OnSignalStops();
    PollConforms(env.schedule, OnSignal, None, p);
    var loop := PollUntilFlag(env.schedule, OnSignal, None);
    ReplayAppend(serving, [InstallHandlers], loop.events);
    if !loop.end.Waiting? {
      ReplayAppend(serving, [InstallHandlers] + loop.events, [Log("boot-python stopped")]);
    }
  }

  lemma CheckTailStops(env: Env, p: nat)
    ensures Replay(Phase(p, true, true, false), CheckTail(env)) == Some(Phase(p, true, true, true))
  {
    var tail := CheckTail(env);
    var stopped := Phase(p, true, true, true);
    assert Replay(stopped, tail[1..]) == Some(stopped);
  }

  /** Every run follows the handshake protocol, and a clean return has stopped the server. */
  lemma MainConforms(env: Env)
    ensures Conforms(Main(env))
  {
    var p := env.port;
    var r := Main(env);
    if p != 0 {
      MainTrace(env);
      AnnounceServes(p);
      var serving := Phase(p, true, true, false);
      if CheckMode(env) {
        CheckTailStops(env, p);
        ReplayAppend(Initial, Announce(p), CheckTail(env));
        assert Replay(Initial, r.trace) == Some(serving.(stopped := true));
      } else {
        var wait := RunServerUntilSignal(env).0;
        WaitConforms(env, p);
        ReplayAppend(Initial, Announce(p), wait);
        assert Replay(Initial, r.trace) == Some(serving.(stopped := AnySignal(env.schedule)));
      }
    }
  }
}

=== FILE: boot_server.dfy ===
/**
 The request handler of the top-level `boot_python` package: every readable
 `.txt` file of the packaged prompts directory, and a summariser that answers
 the empty spec without consulting the parser.
 */
module BootServer {
  import opened PyRuntime
  import opened TomlValue
  import opened PromptFiles
  import opened Rpc
  import opened Summary

  /** `entry.is_file() and entry.name.endswith(".txt")`. */
  predicate IsTxtFile(e: Entry) {
    e.kind.RegularFile? && EndsWith(e.name, ".txt")
  }

  /** A `.txt` file whose `read_text` raises, which ends the enumeration. */
  predicate FailsToLoad(e: Entry) {
    IsTxtFile(e) && e.kind.content.Unreadable?
  }

  /** No entry before position `i` stopped the enumeration. */
  predicate ReachedCleanly(entries: seq<Entry>, i: nat)
    requires i <= |entries|
  {
    forall j :: 0 <= j < i ==> !FailsToLoad(entries[j])
  }

  /** Entry `i` was read into the result: a readable `.txt` file reached before any failure. */
  predicate Loaded(entries: seq<Entry>, i: nat)
    requires i < |entries|
  {
    IsTxtFile(entries[i]) && entries[i].kind.content.Text? && ReachedCleanly(entries, i)
  }

  /** The files gathered, and whether an exception cut the enumeration short. */
  datatype Gathered = Gathered(files: map<string, string>, interrupted: bool)

  /**
   The `for` loop of `_load_prompts` over the enumerated entries: `.txt`
   regular files are read in order; the first read that raises ends the loop,
   and what was gathered until then is kept.
   */
  function GatherTxt(entries: seq<Entry>): (g: Gathered)
    ensures g.interrupted <==> exists i :: 0 <= i < |entries| && FailsToLoad(entries[i])
    ensures forall k :: k in g.files <==> exists i :: 0 <= i < |entries| && entries[i].name == k && Loaded(entries, i)
    ensures forall k :: k in g.files ==>
      exists i :: 0 <= i < |entries| && entries[i] == Entry(k, RegularFile(Text(g.files[k]))) && ReachedCleanly(entries, i)
  {
    if |entries| == 0 then Gathered(map[], false)
    else
      var n := |entries| - 1;
      var earlier := entries[..n];
      var e := entries[n];
      assert forall i :: 0 <= i < n ==> earlier[i] == entries[i];
      assert forall i :: 0 <= i <= n ==> (ReachedCleanly(earlier, i) <==> ReachedCleanly(entries, i));
      assert forall i :: 0 <= i < n ==> (Loaded(earlier, i) <==> Loaded(entries, i));
      var g := GatherTxt(earlier);
      if g.interrupted || !IsTxtFile(e) then
        g
      else match e.kind.content
        case Text(t) => Gathered(g.files[e.name := t], false)
        case Unreadable(_) => Gathered(g.files, true)
  }

  /** `_load_prompts()`: a missing resource directory gives the empty mapping. */
  function LoadPrompts(dir: Directory): (r: map<string, string>)
    ensures forall k :: k in r ==> EndsWith(k, ".txt")
    ensures dir.Missing? ==> r == map[]
    ensures dir.Listing? ==> r == GatherTxt(dir.entries).files
    ensures forall k :: k in r <==>
      dir.Listing? && exists i :: 0 <= i < |dir.entries| && dir.entries[i].name == k && Loaded(dir.entries, i)
    ensures forall k :: k in r ==>
      dir.Listing? && exists i :: 0 <= i < |dir.entries| && dir.entries[i] == Entry(k, RegularFile(Text(r[k])))
  {
    match dir
    case Missing => map[]
    case Listing(entries) => GatherTxt(entries).files
  }

  /** The body of the `try` in `_derive_user_spec_prompt`. */
  function TrySummary(parse: Parser, specToml: string): Result<string, Exception> {
    var data :- parse(specToml);
    var project := if data.Table? then Get(data, "project", EmptyTable).value else EmptyTable;
    var name :- Get(project, "name", Str("(unknown)"));
    // once `project.get` has worked, `project` is a table and the next two cannot fail
    var lang := Get(project, "language", Str("python")).value;
    var descr := Get(project, "description", Str("")).value;
    Success(Sentence(Show(lang), Show(name), Show(descr)))
  }

  /**
   `_derive_user_spec_prompt`: never raises. The empty spec gives the fallback
   at once; a parsed document gives the composed sentence with the defaults
   "(unknown)", "python" and "" (a top level that is not a table, or a
   missing `project`, reads as an empty project); a parse failure or a
   `project` that is not a table gives the fallback.
   */
  function DeriveUserSpecPrompt(parse: Parser, specToml: string): (r: string)
    ensures specToml == "" ==> r == Fallback
    ensures specToml != "" && parse(specToml).Failure? ==> r == Fallback
    ensures specToml != "" && parse(specToml).Success? && !parse(specToml).value.Table? ==>
      r == Sentence("python", "(unknown)", "")
    ensures specToml != "" && parse(specToml).Success? && parse(specToml).value.Table? ==>
      var top := parse(specToml).value.entries;
      if "project" !in top then
        r == Sentence("python", "(unknown)", "")
      else if !top["project"].Table? then
        r == Fallback
      else
        var project := top["project"].entries;
        r == Sentence(FieldOr(project, "language", "python"),
                      FieldOr(project, "name", "(unknown)"),
                      FieldOr(project, "description", ""))
  {
    if specToml == "" then Fallback
    else match TrySummary(parse, specToml)
      case Success(s) => s
      case Failure(_) => Fallback
  }

  /** `GetPromptComponents`: loading and summarising both swallow their failures, so it always replies. */
  function GetPromptComponents(dir: Directory, parse: Parser, request: Request): (r: Outcome)
    ensures r.Reply? && r.code == OK && r.details == ""
    ensures r.response.components == LoadPrompts(dir)
    ensures forall k :: k in r.response.components ==> EndsWith(k, ".txt")
    ensures r.response.userSpecPrompt == DeriveUserSpecPrompt(parse, SpecText(request))
    ensures request.specTomlContent.None? ==> r.response.userSpecPrompt == Fallback
  {
    Reply(OK, "", Response(LoadPrompts(dir), DeriveUserSpecPrompt(parse, SpecText(request))))
  }

  /** The empty spec is answered without the parser: any two parsers agree on it. */
  lemma EmptySpecIgnoresParser(parse: Parser, other: Parser)
    ensures DeriveUserSpecPrompt(parse, "") == DeriveUserSpecPrompt(other, "") == Fallback
  {
  }

  /** Every summary, parsed or fallback, carries the word "Description". */
  lemma SummaryMentionsDescription(parse: Parser, specToml: string)
    ensures Contains(DeriveUserSpecPrompt(parse, specToml), "Description")
  {
    if specToml == "" || TrySummary(parse, specToml).Failure? {
      FallbackMentionsDescription();
    } else {
      var data := parse(specToml).value;
      var project := if data.Table? then Get(data, "project", EmptyTable).value else EmptyTable;
      SentenceMentionsDescription(
        Show(Get(project, "language", Str("python")).value),
        Show(Get(project, "name", Str("(unknown)")).value),
        Show(Get(project, "description", Str("")).value));
    }
  }

  /**
   The well-formed spec of the test suite: once parsed into a `project` table
   naming "demo" in "python", the summary mentions both.
   */
  lemma DemoSpecSummary(parse: Parser, doc: string, tableText: string, docText: string)
    requires doc != ""
    requires parse(doc) == Success(Table(map["project" := Table(map[
      "name" := Str("demo"), "description" := Str("Test"), "language" := Str("python")], tableText)], docText))
    ensures DeriveUserSpecPrompt(parse, doc) == Sentence("python", "demo", "Test")
    ensures Contains(DeriveUserSpecPrompt(parse, doc), "demo")
    ensures Contains(DeriveUserSpecPrompt(parse, doc), "python")
  {
    SentenceMentionsFields("python", "demo", "Test");
  }
}

=== FILE: handshake.dfy ===
/**
 The handshake line a plugin writes to stdout so the host can find it:
 `1|1|tcp|<host>:<port>|grpc` (protocol major and minor version, transport,
 address, wire format), and a reference reader of that line. The host's own
 parser is not part of this model; the reader here only fixes what the line
 says, so that writing it can be checked against reading it.
 */
module Handshake {
  import opened PyRuntime

  /** Every variant announces, and binds, the IPv4 loopback address. */
  const LoopbackHost := "127.0.0.1"

  const Prefix := "1|1|tcp|"
  const Suffix := "|grpc"

  datatype Address = Address(host: string, port: nat)

  /** `"1|1|tcp|{host}:{port}|grpc"`, with `port` written by `str()`. */
  function Line(host: string, port: nat): string {
    Prefix + host + ":" + DecimalString(port) + Suffix
  }

  /** The position of the last `c` in `s`. */
  function LastIndexOf(s: string, c: char): (r: Option<nat>)
    ensures r.Some? ==> r.value < |s| && s[r.value] == c && forall j :: r.value < j < |s| ==> s[j] != c
    ensures r.None? ==> forall j :: 0 <= j < |s| ==> s[j] != c
  {
    if |s| == 0 then None
    else if s[|s| - 1] == c then Some(|s| - 1)
    else LastIndexOf(s[..|s| - 1], c)
  }

  /** `host:port`, split at the last colon, with a decimal port. */
  function SplitAddress(middle: string): Option<Address> {
    match LastIndexOf(middle, ':')
    case None => None
    case Some(k) =>
      var digits := middle[k + 1..];
      if IsCanonicalDecimal(digits) then Some(Address(middle[..k], DigitsValue(digits))) else None
  }

  /** A line without its newline: the fixed frame around `host:port`. */
  function ParseFrame(body: string): Option<Address> {
    if |body| < |Prefix| + |Suffix| || !StartsWith(body, Prefix) || !EndsWith(body, Suffix) then None
    else SplitAddress(body[|Prefix|..|body| - |Suffix|])
  }

  /** A reference reader of a handshake line: at most one trailing newline, then the frame. */
  function Parse(line: string): Option<Address> {
    if EndsWith(line, "\n") then ParseFrame(line[..|line| - 1]) else ParseFrame(line)
  }

  lemma SplitAddressOf(host: string, port: nat)
    ensures SplitAddress(host + ":" + DecimalString(port)) == Some(Address(host, port))
  {
    var digits := DecimalString(port);
    var middle := host + ":" + digits;
    assert middle[|host|] == ':';
    assert forall j :: |host| < j < |middle| ==> middle[j] == digits[j - |host| - 1];
    assert LastIndexOf(middle, ':') == Some(|host|);
    assert middle[|host| + 1..] == digits;
    assert middle[..|host|] == host;
    DecimalRoundTrip(port);
  }

  lemma FrameOfLine(host: string, port: nat)
    ensures ParseFrame(Line(host, port)) == Some(Address(host, port))
  {
    var middle := host + ":" + DecimalString(port);
    Regroup(Prefix, host, DecimalString(port), Suffix);
    Unframe(Prefix, middle, Suffix);
    SplitAddressOf(host, port);
  }

  /** A body built as `p + middle + q` starts with `p`, ends with `q`, and has `middle` between them. */
  lemma Unframe(p: string, middle: string, q: string)
    ensures var body := p + middle + q;
      StartsWith(body, p) && EndsWith(body, q) && body[|p|..|body| - |q|] == middle
  {
    var body := p + middle + q;
    assert body[..|p|] == p;
    assert body[|body| - |q|..] == q;
    assert body[|p|..|body| - |q|] == middle;
  }

  /** The reference reader gets back exactly the address announced, with or without the trailing newline. */
  lemma ParseLine(host: string, port: nat)
    ensures Parse(Line(host, port)) == Some(Address(host, port))
    ensures Parse(Line(host, port) + "\n") == Some(Address(host, port))
  {
    FrameOfLine(host, port);
    var s := Line(host, port);
    assert s[|s| - 1] == Suffix[|Suffix| - 1];
    assert !EndsWith(s, "\n");
    var t := s + "\n";
    assert EndsWith(t, "\n");
    assert t[..|t| - 1] == s;
  }

  lemma SplitAddressOnly(middle: string)
    requires SplitAddress(middle).Some?
    ensures middle == SplitAddress(middle).value.host + ":" + DecimalString(SplitAddress(middle).value.port)
  {
    var k := LastIndexOf(middle, ':').value;
    var digits := middle[k + 1..];
    CanonicalDecimalRoundTrip(digits);
    assert middle == middle[..k] + ":" + digits;
  }

  /** A string that starts with `p` and ends with `q`, with room for both, is `p`, its middle, then `q`. */
  lemma Framed(body: string, p: string, q: string)
    requires |p| + |q| <= |body| && StartsWith(body, p) && EndsWith(body, q)
    ensures body == p + body[|p|..|body| - |q|] + q
  {
    assert body == body[..|p|] + body[|p|..|body| - |q|] + body[|body| - |q|..];
  }

  /** Regrouping `p + (h + ":" + d) + q` as the line is written. */
  lemma Regroup(p: string, h: string, d: string, q: string)
    ensures p + (h + ":" + d) + q == p + h + ":" + d + q
  {
    var m := h + ":" + d;
    assert p + m + q == (p + h) + (":" + d) + q;
  }

  lemma FrameOnlyLines(body: string)
    requires ParseFrame(body).Some?
    ensures body == Line(ParseFrame(body).value.host, ParseFrame(body).value.port)
  {
    var middle := body[|Prefix|..|body| - |Suffix|];
    var a := ParseFrame(body).value;
    assert SplitAddress(middle) == Some(a);
    SplitAddressOnly(middle);
    var d := DecimalString(a.port);
    assert middle == a.host + ":" + d;
    Framed(body, Prefix, Suffix);
    Regroup(Prefix, a.host, d, Suffix);
  }

  /** Conversely, the only lines the reference reader accepts are handshake lines, optionally newline-terminated. */
  lemma ParseOnlyLines(line: string)
    requires Parse(line).Some?
    ensures line == Line(Parse(line).value.host, Parse(line).value.port)
         || line == Line(Parse(line).value.host, Parse(line).value.port) + "\n"
  {
    if EndsWith(line, "\n") {
      var body := line[..|line| - 1];
      FrameOnlyLines(body);
      assert line == body + "\n";
    } else {
      FrameOnlyLines(line);
    }
  }
}

=== FILE: lifecycle.dfy ===
/**
 The startup/shutdown life of the plugin process as a trace of observable
 events, the environment that decides the nondeterministic parts (the port
 the OS hands out, the flags, when signals arrive), the stop-flag wait loop
 shared by the boot_python entry points, and a state machine that says which
 traces follow the handshake protocol: bind on the loopback, announce the
 bound address once on stdout, serve, and stop before a clean exit.
 */
module Lifecycle {
  import opened PyRuntime
  import opened Handshake

  datatype Sig = SigInt | SigTerm

  datatype Event =
    | Probe(host: string, port: nat)        // a throw-away socket bound to the loopback, read and closed
    | AddPort(address: string, port: nat)   // `server.add_insecure_port(address)` returned `port` (0: failed, by convention)
    | Start
    | Stdout(text: string)
    | Flush
    | Log(message: string)                  // one line on stderr
    | InstallHandlers                       // SIGINT and SIGTERM handlers
    | Sleep                                 // one `time.sleep(0.2)` of a wait loop
    | WaitForTermination
    | Signal(sig: Sig)
    | Stop(grace: Option<nat>)              // `server.stop(grace)`; None is `grace=None`
    | AwaitStopped                          // waiting on the event `stop` returned

  /** How a run ends: `main` returns, raises, the process is killed, or it is still waiting. */
  datatype Exit = Returned | Raised(exception: Exception) | Killed(sig: Sig) | StillWaiting

  datatype Run = Run(trace: seq<Event>, exit: Exit)

  /**
   The parts of a run the program does not decide. `port` is what binding
   the loopback to port 0 yields; `rebindOk` whether binding that port again
   succeeds; `schedule` has one element per poll interval listing the signals
   delivered during it (a run is observed until the schedule is exhausted);
   `stopFault` is what a call of `server.stop` raises, if anything: the same
   for every call in the run, whether in a signal handler or not.
   */
  datatype Env = Env(
    port: nat,
    rebindOk: bool,
    checkFlag: bool,
    exitVar: Option<string>,
    schedule: seq<seq<Sig>>,
    stopFault: Option<Exception>)

  /** The text written to stdout, one element per write. */
  function Writes(trace: seq<Event>): (w: seq<string>)
    ensures |w| <= |trace|
  {
    if |trace| == 0 then []
    else (if trace[0].Stdout? then [trace[0].text] else []) + Writes(trace[1..])
  }

  lemma {:induction false} WritesAppend(a: seq<Event>, b: seq<Event>)
    ensures Writes(a + b) == Writes(a) + Writes(b)
  {
    if |a| > 0 {
      assert (a + b)[0] == a[0];
      assert (a + b)[1..] == a[1..] + b;
      WritesAppend(a[1..], b);
    } else {
      assert a + b == b;
    }
  }

  lemma {:induction false} NoStdoutNoWrites(trace: seq<Event>)
    requires forall i :: 0 <= i < |trace| ==> !trace[i].Stdout?
    ensures Writes(trace) == []
  {
    if |trace| > 0 {
      NoStdoutNoWrites(trace[1..]);
    }
  }

  /** The converse: a trace that writes nothing has no stdout event. */
  lemma {:induction false} NoWritesNoStdout(trace: seq<Event>)
    requires Writes(trace) == []
    ensures forall i :: 0 <= i < |trace| ==> !trace[i].Stdout?
  {
    if |trace| > 0 {
      NoWritesNoStdout(trace[1..]);
      forall i | 1 <= i < |trace|
        ensures !trace[i].Stdout?
      {
        assert trace[i] == trace[1..][i - 1];
      }
    }
  }

  /** How many times `e` happens in `trace`. */
  function Occurrences(trace: seq<Event>, e: Event): (n: nat)
    ensures n == 0 <==> e !in trace
  {
    multiset(trace)[e]
  }

  lemma OccurrencesAppend(a: seq<Event>, b: seq<Event>, e: Event)
    ensures Occurrences(a + b, e) == Occurrences(a, e) + Occurrences(b, e)
  {
    assert multiset(a + b) == multiset(a) + multiset(b);
  }

  /** Some signal is delivered during one of the observed poll intervals. */
  predicate AnySignal(schedule: seq<seq<Sig>>) {
    exists i :: 0 <= i < |schedule| && |schedule[i]| > 0
  }

  /** Interval `i` is the first in which a signal is delivered. */
  predicate FirstSignalAt(schedule: seq<seq<Sig>>, i: int) {
    0 <= i < |schedule| && |schedule[i]| > 0 && forall j :: 0 <= j < i ==> |schedule[j]| == 0
  }

  /** The first signal delivered, if any: the first one of the first interval that has any. */
  function FirstSignal(schedule: seq<seq<Sig>>): (r: Option<Sig>)
    ensures r.Some? <==> AnySignal(schedule)
    ensures r.Some? ==> exists i :: FirstSignalAt(schedule, i) && r.value == schedule[i][0]
  {
    if |schedule| == 0 then None
    else if |schedule[0]| > 0 then
      assert FirstSignalAt(schedule, 0);
      Some(schedule[0][0])
    else
      var r := FirstSignal(schedule[1..]);
      assert AnySignal(schedule[1..]) ==> AnySignal(schedule);
      assert AnySignal(schedule) ==> |schedule[0]| > 0 || AnySignal(schedule[1..]);
      if r.Some? then
        var i :| FirstSignalAt(schedule[1..], i) && r.value == schedule[1..][i][0];
        assert forall j :: 1 <= j < i + 1 ==> schedule[j] == schedule[1..][j - 1];
        assert FirstSignalAt(schedule, i + 1);
        r
      else
        r
  }

  /** Each signal in `sigs` runs the handler in turn. */
  function HandleAll(sigs: seq<Sig>, onSignal: Sig -> seq<Event>): seq<Event> {
    if |sigs| == 0 then [] else onSignal(sigs[0]) + HandleAll(sigs[1..], onSignal)
  }

  datatype LoopEnd = Flagged | Faulted(exception: Exception) | Waiting

  datatype Loop = Loop(events: seq<Event>, end: LoopEnd)

  /**
   `while not flag: time.sleep(0.2)` with a signal handler that sets the flag:
   each interval sleeps, runs the handler for every signal delivered meanwhile,
   and the loop ends at the first check after a signal. When `fault` is given,
   the first handler run raises it (after its events), ending the loop.
   */
  function PollUntilFlag(schedule: seq<seq<Sig>>, onSignal: Sig -> seq<Event>, fault: Option<Exception>)
    : (l: Loop)
    ensures l.end.Waiting? <==> !AnySignal(schedule)
    ensures l.end.Faulted? ==> fault == Some(l.end.exception)
    ensures fault.None? ==> !l.end.Faulted?
    ensures fault.Some? && AnySignal(schedule) ==> l.end == Faulted(fault.value)
  {
    if |schedule| == 0 then Loop([], Waiting)
    else if |schedule[0]| == 0 then
      var rest := PollUntilFlag(schedule[1..], onSignal, fault);
      assert AnySignal(schedule[1..]) <==> AnySignal(schedule);
      Loop([Sleep] + rest.events, rest.end)
    else if fault.Some? then
      Loop([Sleep] + onSignal(schedule[0][0]), Faulted(fault.value))
    else
      Loop([Sleep] + HandleAll(schedule[0], onSignal), Flagged)
  }

  lemma {:induction false} HandleAllHasNoSleep(sigs: seq<Sig>, onSignal: Sig -> seq<Event>)
    requires forall s: Sig :: Sleep !in onSignal(s)
    ensures Sleep !in HandleAll(sigs, onSignal)
  {
    if |sigs| > 0 {
      HandleAllHasNoSleep(sigs[1..], onSignal);
    }
  }

  lemma {:induction false} HandleAllAvoids(sigs: seq<Sig>, onSignal: Sig -> seq<Event>, e: Event)
    requires forall s: Sig :: e !in onSignal(s)
    ensures e !in HandleAll(sigs, onSignal)
  {
    if |sigs| > 0 {
      HandleAllAvoids(sigs[1..], onSignal, e);
    }
  }

  /** A wait loop does nothing but sleep and run its handler. */
  lemma {:induction false} PollAvoids(schedule: seq<seq<Sig>>, onSignal: Sig -> seq<Event>, fault: Option<Exception>, e: Event)
    requires e != Sleep && forall s: Sig :: e !in onSignal(s)
    ensures e !in PollUntilFlag(schedule, onSignal, fault).events
  {
    if |schedule| > 0 {
      if |schedule[0]| == 0 {
        PollAvoids(schedule[1..], onSignal, fault, e);
      } else if fault.None? {
        HandleAllAvoids(schedule[0], onSignal, e);
      }
    }
  }

  /** Only sleeps happen before a sleep. */
  predicate SleepsFirst(events: seq<Event>) {
    forall i, j :: 0 <= j < i < |events| && events[i] == Sleep ==> events[j] == Sleep
  }

  /** Polling stops once a signal is handled: every sleep comes before anything else the loop does. */
  lemma {:induction false} SleepsComeFirst(schedule: seq<seq<Sig>>, onSignal: Sig -> seq<Event>, fault: Option<Exception>)
    requires forall s: Sig :: Sleep !in onSignal(s)
    ensures SleepsFirst(PollUntilFlag(schedule, onSignal, fault).events)
  {
    var l := PollUntilFlag(schedule, onSignal, fault);
    if |schedule| > 0 {
      if |schedule[0]| == 0 {
        SleepsComeFirst(schedule[1..], onSignal, fault);
        var rest := PollUntilFlag(schedule[1..], onSignal, fault);
        assert l.events == [Sleep] + rest.events;
        forall i, j | 0 <= j < i < |l.events| && l.events[i] == Sleep
          ensures l.events[j] == Sleep
        {
          assert l.events[i] == rest.events[i - 1];
          if j > 0 {
            assert SleepsFirst(rest.events);
            assert 0 <= j - 1 < i - 1 < |rest.events| && rest.events[i - 1] == Sleep;
            assert rest.events[j - 1] == Sleep;
            assert rest.events[j - 1] == l.events[j];
          }
        }
      } else {
        var tail := if fault.Some? then onSignal(schedule[0][0]) else HandleAll(schedule[0], onSignal);
        if fault.None? {
          HandleAllHasNoSleep(schedule[0], onSignal);
        }
        assert l.events == [Sleep] + tail;
        forall i | 0 < i < |l.events|
          ensures l.events[i] != Sleep
        {
          assert l.events[i] == tail[i - 1];
        }
      }
    }
  }

  lemma {:induction false} HandleAllWritesNothing(sigs: seq<Sig>, onSignal: Sig -> seq<Event>)
    requires forall s: Sig :: Writes(onSignal(s)) == []
    ensures Writes(HandleAll(sigs, onSignal)) == []
  {
    if |sigs| > 0 {
      HandleAllWritesNothing(sigs[1..], onSignal);
      WritesAppend(onSignal(sigs[0]), HandleAll(sigs[1..], onSignal));
    }
  }

  /** A wait loop whose handler stays off stdout leaves stdout alone. */
  lemma {:induction false} PollWritesNothing(schedule: seq<seq<Sig>>, onSignal: Sig -> seq<Event>, fault: Option<Exception>)
    requires forall s: Sig :: Writes(onSignal(s)) == []
    ensures Writes(PollUntilFlag(schedule, onSignal, fault).events) == []
  {
    if |schedule| > 0 {
      if |schedule[0]| == 0 {
        PollWritesNothing(schedule[1..], onSignal, fault);
        WritesAppend([Sleep], PollUntilFlag(schedule[1..], onSignal, fault).events);
      } else if fault.Some? {
        WritesAppend([Sleep], onSignal(schedule[0][0]));
      } else {
        HandleAllWritesNothing(schedule[0], onSignal);
        WritesAppend([Sleep], HandleAll(schedule[0], onSignal));
      }
    }
  }

  // ---------------------------------------------------------------------
  // The protocol state machine

  /** Where a run stands: the bound port (0: none), started, announced, stop requested. */
  datatype Phase = Phase(port: nat, started: bool, announced: bool, stopped: bool)

  const Initial := Phase(0, false, false, false)

  /** The handshake a run bound to `port` may write: the line, with or without a newline. */
  predicate IsHandshakeFor(text: string, port: nat) {
    text == Line(LoopbackHost, port) || text == Line(LoopbackHost, port) + "\n"
  }

  /**
   One event of the protocol. Binding happens once, on the loopback; the
   server starts only once bound to a real port; stdout is written once, with
   the handshake for the bound port; waiting and signals happen only while
   serving; a stop needs a started server.
   */
  function Step(ph: Phase, e: Event): Option<Phase> {
    match e
    case Probe(_, _) => if ph.port == 0 && !ph.started && !ph.announced then Some(ph) else None
    case AddPort(address, p) =>
      if ph.port == 0 && !ph.started && StartsWith(address, LoopbackHost + ":") then Some(ph.(port := p)) else None
    case Start => if ph.port != 0 && !ph.started then Some(ph.(started := true)) else None
    case Stdout(text) =>
      if ph.port != 0 && !ph.announced && IsHandshakeFor(text, ph.port) then Some(ph.(announced := true)) else None
    case Flush => if ph.announced then Some(ph) else None
    case Log(_) => Some(ph)
    case InstallHandlers => if ph.started && ph.announced && !ph.stopped then Some(ph) else None
    case WaitForTermination => if ph.started && ph.announced && !ph.stopped then Some(ph) else None
    case Sleep => if ph.started && ph.announced && !ph.stopped then Some(ph) else None
    case Signal(_) => if ph.started && ph.announced then Some(ph) else None
    case Stop(_) => if ph.started then Some(ph.(stopped := true)) else None
    case AwaitStopped => if ph.stopped then Some(ph) else None
  }

  /** The phase after a whole trace, if the protocol allows every event of it. */
  function Replay(ph: Phase, trace: seq<Event>): Option<Phase>
    decreases |trace|
  {
    if |trace| == 0 then Some(ph)
    else match Step(ph, trace[0])
      case None => None
      case Some(next) => Replay(next, trace[1..])
  }

  /**
   A run follows the protocol, and a clean return comes only after the
   handshake was written and the server stopped.
   */
  predicate Conforms(run: Run) {
    && Replay(Initial, run.trace).Some?
    && (run.exit.Returned? ==> Replay(Initial, run.trace).value.announced && Replay(Initial, run.trace).value.stopped)
  }

  lemma {:induction false} ReplayAppend(ph: Phase, a: seq<Event>, b: seq<Event>)
    ensures Replay(ph, a + b) == (match Replay(ph, a) case None => None case Some(mid) => Replay(mid, b))
    decreases |a|
  {
    if |a| > 0 {
      assert (a + b)[0] == a[0];
      assert (a + b)[1..] == a[1..] + b;
      match Step(ph, a[0])
      case None =>
      case Some(next) => ReplayAppend(next, a[1..], b);
    } else {
      assert a + b == b;
    }
  }

  /** Replaying a trace that starts with `e`: one step, then the rest. */
  lemma ReplayCons(ph: Phase, e: Event, rest: seq<Event>)
    ensures Replay(ph, [e] + rest) == (match Step(ph, e) case None => None case Some(next) => Replay(next, rest))
  {
    assert ([e] + rest)[0] == e;
    assert ([e] + rest)[1..] == rest;
  }

  /**
   Whatever a conforming trace does, stdout receives at most one write, and
   that write is the handshake for the port the run is bound to.
   */
  lemma {:induction false} ConformingTraceWritesHandshakeOnly(ph: Phase, trace: seq<Event>)
    requires Replay(ph, trace).Some?
    ensures ph.announced ==> Writes(trace) == [] && Replay(ph, trace).value.announced
    ensures |Writes(trace)| <= 1
    ensures |Writes(trace)| == 1 ==> !ph.announced && Replay(ph, trace).value.announced
    ensures |Writes(trace)| == 1 ==> exists p: nat :: p != 0 && IsHandshakeFor(Writes(trace)[0], p)
    decreases |trace|
  {
    if |trace| > 0 {
      var next := Step(ph, trace[0]).value;
      ConformingTraceWritesHandshakeOnly(next, trace[1..]);
      assert Replay(ph, trace) == Replay(next, trace[1..]);
      if trace[0].Stdout? {
        assert Writes(trace) == [trace[0].text];
        assert IsHandshakeFor(Writes(trace)[0], ph.port);
      } else {
        assert Writes(trace) == Writes(trace[1..]);
      }
    }
  }

  /** The handler of a wait loop stops the server, from any serving phase. */
  ghost predicate StopsServer(onSignal: Sig -> seq<Event>) {
    forall s: Sig, p: nat, stopped: bool ::
      Replay(Phase(p, true, true, stopped), onSignal(s)) == Some(Phase(p, true, true, true))
  }

  lemma {:induction false} HandleAllStops(sigs: seq<Sig>, onSignal: Sig -> seq<Event>, p: nat, stopped: bool)
    requires StopsServer(onSignal)
    ensures Replay(Phase(p, true, true, stopped), HandleAll(sigs, onSignal))
         == Some(Phase(p, true, true, stopped || |sigs| > 0))
  {
    if |sigs| > 0 {
      ReplayAppend(Phase(p, true, true, stopped), onSignal(sigs[0]), HandleAll(sigs[1..], onSignal));
      HandleAllStops(sigs[1..], onSignal, p, true);
    }
  }

  /** Run from a serving phase, a wait loop follows the protocol and has stopped the server unless still waiting. */
  lemma {:induction false} PollConforms(schedule: seq<seq<Sig>>, onSignal: Sig -> seq<Event>, fault: Option<Exception>, p: nat)
    requires StopsServer(onSignal)
    ensures Replay(Phase(p, true, true, false), PollUntilFlag(schedule, onSignal, fault).events)
         == Some(Phase(p, true, true, !PollUntilFlag(schedule, onSignal, fault).end.Waiting?))
  {
    var serving := Phase(p, true, true, false);
    if |schedule| > 0 {
      if |schedule[0]| == 0 {
        PollConforms(schedule[1..], onSignal, fault, p);
        ReplayAppend(serving, [Sleep], PollUntilFlag(schedule[1..], onSignal, fault).events);
      } else if fault.Some? {
        ReplayAppend(serving, [Sleep], onSignal(schedule[0][0]));
      } else {
        HandleAllStops(schedule[0], onSignal, p, false);
        ReplayAppend(serving, [Sleep], HandleAll(schedule[0], onSignal));
      }
    }
  }
}

=== FILE: prompt_files.dfy ===
/**
 An abstract view of the directory holding the prompt templates: the
 entries an enumeration yields, in order, each a regular file (whose read
 may fail) or something else. Real filesystem and package-resource access
 are replaced by this listing.
 */
module PromptFiles {
  import opened PyRuntime

  /** What reading a file as text gives: its contents, or the exception raised. */
  datatype Content = Text(text: string) | Unreadable(error: Exception)

  datatype Kind = RegularFile(content: Content) | Subdirectory

  datatype Entry = Entry(name: string, kind: Kind)

  /** The prompts location: absent (not a directory), or its entries in enumeration order. */
  datatype Directory = Missing | Listing(entries: seq<Entry>)

  /** A real directory never lists one name twice. */
  predicate DistinctNames(entries: seq<Entry>) {
    forall i, j :: 0 <= i < j < |entries| ==> entries[i].name != entries[j].name
  }

  /** `is_file()` holds and reading the file as text succeeds. */
  predicate IsReadableFile(e: Entry) {
    e.kind.RegularFile? && e.kind.content.Text?
  }

  /** The entry a path `dir / name` refers to, if it exists. */
  function Lookup(dir: Directory, name: string): (r: Option<Kind>)
    ensures r.Some? <==> dir.Listing? && exists i :: 0 <= i < |dir.entries| && dir.entries[i].name == name
    ensures r.Some? ==> exists i :: 0 <= i < |dir.entries| && dir.entries[i] == Entry(name, r.value)
  {
    match dir
    case Missing => None
    case Listing(entries) => LookupIn(entries, name)
  }

  function LookupIn(entries: seq<Entry>, name: string): (r: Option<Kind>)
    ensures r.Some? <==> exists i :: 0 <= i < |entries| && entries[i].name == name
    ensures r.Some? ==> exists i :: 0 <= i < |entries| && entries[i] == Entry(name, r.value)
  {
    if |entries| == 0 then None
    else if entries[0].name == name then Some(entries[0].kind)
    else
      var r := LookupIn(entries[1..], name);
      assert r.Some? ==> exists i :: 0 <= i < |entries[1..]| && entries[1..][i] == Entry(name, r.value);
      assert forall i :: 1 <= i < |entries| ==> entries[i] == entries[1..][i - 1];
      r
  }
}

=== FILE: rpc.dfy ===
/** The one remote call's request, response and the outcome a handler produces. */
module Rpc {
  import opened PyRuntime

  /** The request; the boot_python handlers read the field with `or ""`, so `None` is allowed. */
  datatype Request = Request(specTomlContent: Option<string>)

  datatype Response = Response(components: map<string, string>, userSpecPrompt: string)

  /** `GetPromptComponentsResponse()` with every field left at its default. */
  const EmptyResponse := Response(map[], "")

  datatype StatusCode = OK | INTERNAL

  /**
   What a handler invocation ends in: a response with the status and details
   set on the context, or an exception escaping the handler (which the gRPC
   runtime, not modelled here, reports to the caller as a failed call).
   */
  datatype Outcome =
    | Reply(code: StatusCode, details: string, response: Response)
    | Escaped(exception: Exception)

  /** `request.spec_toml_content or ""`. */
  function SpecText(request: Request): string {
    request.specTomlContent.GetOr("")
  }
}

=== FILE: runtime.dfy ===
/**
 The small part of the Python runtime the plugin's logic relies on: optional
 values, results that carry a raised exception, the exceptions themselves,
 string prefix/suffix/substring tests and `str()` of a non-negative integer.
 */
module PyRuntime {

  /** A value that may be absent (Python's `None`). */
  datatype Option<+T> = None | Some(value: T) {
    function GetOr(default: T): T {
      match this
      case Some(v) => v
      case None => default
    }
  }

  /** Either a value or the exception a Python expression raised computing it. */
  datatype Result<+T, +E> = Success(value: T) | Failure(error: E) {
    predicate IsFailure() {
      Failure?
    }

    function PropagateFailure<U>(): Result<U, E>
      requires Failure?
    {
      Failure(error)
    }

    function Extract(): T
      requires Success?
    {
      value
    }
  }

  /**
   The exceptions the modelled code raises or catches. `detail` is the text
   `str(e)` gives; where the exact CPython wording does not reach any output
   of the plugin it only identifies the failure.
   */
  datatype Exception =
    | TomlDecodeError(detail: string)
    | AttributeError(detail: string)
    | FileNotFoundError(detail: string)
    | IsADirectoryError(detail: string)
    | OSError(detail: string)
    | NameError(detail: string)
    | RuntimeError(detail: string)

  predicate StartsWith(s: string, prefix: string) {
    |prefix| <= |s| && s[..|prefix|] == prefix
  }

  predicate EndsWith(s: string, suffix: string) {
    |suffix| <= |s| && s[|s| - |suffix|..] == suffix
  }

  /** Python's `sub in s`. */
  predicate Contains(s: string, sub: string) {
    exists i :: 0 <= i <= |s| && StartsWith(s[i..], sub)
  }

  lemma ContainsAt(s: string, sub: string, i: nat)
    requires i + |sub| <= |s| && s[i..i + |sub|] == sub
    ensures Contains(s, sub)
  {
    assert StartsWith(s[i..], sub);
  }

  predicate IsDigit(c: char) {
    '0' <= c <= '9'
  }

  predicate AllDigits(s: string) {
    forall i :: 0 <= i < |s| ==> IsDigit(s[i])
  }

  /** The way `str(n)` spells a non-negative integer: digits, no leading zero. */
  predicate IsCanonicalDecimal(s: string) {
    && |s| > 0
    && AllDigits(s)
    && (s[0] == '0' ==> |s| == 1)
  }

  function DigitChar(d: nat): (c: char)
    requires d < 10
    ensures IsDigit(c) && c as int - '0' as int == d
  {
    (d + '0' as int) as char
  }

  /** `str(n)` for a non-negative integer `n`. */
  function DecimalString(n: nat): (s: string)
    ensures IsCanonicalDecimal(s)
    ensures |s| == 1 <==> n < 10
  {
    if n < 10 then [DigitChar(n)] else DecimalString(n / 10) + [DigitChar(n % 10)]
  }

  /** The number a string of decimal digits denotes (`int(s)`). */
  function DigitsValue(s: string): nat
    requires AllDigits(s)
  {
    if |s| == 0 then 0
    else DigitsValue(s[..|s| - 1]) * 10 + (s[|s| - 1] as int - '0' as int)
  }

  /** Reading back what `str(n)` wrote gives `n`. */
  lemma {:induction false} DecimalRoundTrip(n: nat)
    ensures DigitsValue(DecimalString(n)) == n
  {
    var s := DecimalString(n);
    if n >= 10 {
      DecimalRoundTrip(n / 10);
      assert s[..|s| - 1] == DecimalString(n / 10);
    }
  }

  /** Only the digit string of zero denotes zero. */
  lemma {:induction false} ZeroValueOnlyZeros(s: string)
    requires AllDigits(s) && |s| > 0 && DigitsValue(s) == 0
    ensures s[0] == '0'
  {
    if |s| > 1 {
      ZeroValueOnlyZeros(s[..|s| - 1]);
    }
  }

  /** Every canonical digit string is what `str()` writes for its value. */
  lemma {:induction false} CanonicalDecimalRoundTrip(s: string)
    requires IsCanonicalDecimal(s)
    ensures DecimalString(DigitsValue(s)) == s
  {
    if |s| > 1 {
      var t := s[..|s| - 1];
      var d := s[|s| - 1] as int - '0' as int;
      assert t[0] == s[0];
      assert IsCanonicalDecimal(t);
      if DigitsValue(t) == 0 {
        ZeroValueOnlyZeros(t);
        assert false;
      }
      CanonicalDecimalRoundTrip(t);
      var v := DigitsValue(s);
      assert v == DigitsValue(t) * 10 + d;
      assert v / 10 == DigitsValue(t) && v % 10 == d;
      assert s == t + [s[|s| - 1]];
    }
  }
}

=== FILE: src_boot_main.dfy ===
/**
 The entry point of the `src/boot_python` package: probe a free loopback
 port, bind the server to it, write the handshake (no newline) before the
 server starts, then either exit at once (test mode) or poll a stop flag
 that the signal handler sets.
 */
module SrcBootMain {
  import opened PyRuntime
  import opened Handshake
  import opened Lifecycle

  /**
   `_pick_loopback_port`: a probe socket bound to the loopback with port 0,
   read back and closed. The port the OS hands out is the oracle `env.port`.
   */
  function PickLoopbackPort(env: Env): (r: (seq<Event>, Address))
    ensures r.1 == Address(LoopbackHost, env.port)
    ensures Writes(r.0) == []
  {
    ([Probe(LoopbackHost, env.port)], Address(LoopbackHost, env.port))
  }

  /** Test fast exit: BOOT_PYTHON_TEST_EXIT_AFTER_HANDSHAKE is exactly "1". */
  predicate FastExit(env: Env) {
    env.exitVar == Some("1")
  }

  /** The handler `_sigterm`: log, set the flag, stop the server (an exception from `stop` is not caught). */
  function OnSignal(s: Sig): seq<Event> {
    [Signal(s), Log("Received shutdown signal"), Stop(None)]
  }

  /**
   Everything `main` does before choosing how to wait: probe, bind the probed
   address (the result of `add_insecure_port` is not looked at), handshake,
   start, log.
   */
  function Announce(env: Env): seq<Event> {
    var (probe, address) := PickLoopbackPort(env);
    var port := DecimalString(address.port);
    probe + [
      AddPort(address.host + ":" + port, if env.rebindOk then address.port else 0),
      Stdout(Line(address.host, address.port)),
      Flush,
      Start,
      Log("boot-python started on " + address.host + ":" + port)]
  }

  /**
   What `main` does after the server started. Test mode logs, stops the
   server and returns; a fault from that `stop` is not caught, so it leaves
   `main` before "boot-python stopped" is logged. Otherwise the handlers are
   installed and the flag loop runs; its `finally` logs "boot-python stopped"
   whether the loop ends normally or by the handler's `stop` raising.
   */
  function AfterStart(env: Env): (r: (seq<Event>, Exit))
    ensures FastExit(env) && env.stopFault.None? ==> r.1 == Returned
    ensures FastExit(env) && env.stopFault.Some? ==> r.1 == Raised(env.stopFault.value)
    ensures FastExit(env) ==> InstallHandlers !in r.0 && Stop(None) in r.0
    ensures FastExit(env) && env.stopFault.Some? ==> Log("boot-python stopped") !in r.0
    ensures !FastExit(env) ==> |r.0| > 0 && r.0[0] == InstallHandlers
    ensures !FastExit(env) && env.stopFault.Some? && AnySignal(env.schedule) ==> r.1 == Raised(env.stopFault.value)
    ensures r.1 != StillWaiting && !(FastExit(env) && env.stopFault.Some?) ==>
      |r.0| > 0 && r.0[|r.0| - 1] == Log("boot-python stopped")
  {
    if FastExit(env) then
      var stopping := [Log("Exiting immediately due to BOOT_PYTHON_TEST_EXIT_AFTER_HANDSHAKE=1"), Stop(None)];
      match env.stopFault
      case Some(e) => (stopping, Raised(e))
      case None => (stopping + [Log("boot-python stopped")], Returned)
    else
      var loop := PollUntilFlag(env.schedule, OnSignal, env.stopFault);
      var waited := [InstallHandlers] + loop.events;
      match loop.end
      case Waiting => (waited, StillWaiting)
      case Flagged => (waited + [Log("boot-python stopped")], Returned)
      case Faulted(e) => (waited + [Log("boot-python stopped")], Raised(e))
  }

  /**
   `main()`: test mode returns at once, or raises what its `stop` raised;
   otherwise the run waits until a signal, and returns, or raises what `stop`
   raised inside the handler. "boot-python stopped" is logged last except
   when the test-mode `stop` raises.
   */
  function Main(env: Env): (r: Run)
    ensures FastExit(env) && env.stopFault.None? ==> r.exit == Returned
    ensures FastExit(env) && env.stopFault.Some? ==> r.exit == Raised(env.stopFault.value)
    ensures !FastExit(env) ==> (r.exit == StillWaiting <==> !AnySignal(env.schedule))
    ensures !FastExit(env) && env.stopFault.None? ==> (r.exit == Returned <==> AnySignal(env.schedule))
    ensures !FastExit(env) && env.stopFault.Some? && AnySignal(env.schedule) ==> r.exit == Raised(env.stopFault.value)
    ensures r.exit.Raised? ==> Some(r.exit.exception) == env.stopFault
    ensures r.exit != StillWaiting && !(FastExit(env) && env.stopFault.Some?) ==>
      |r.trace| > 0 && r.trace[|r.trace| - 1] == Log("boot-python stopped")
  {
    var (rest, exit) := AfterStart(env);
    Run(Announce(env) + rest, exit)
  }

  /** Test mode after the start: log, stop, and "boot-python stopped" unless that `stop` raised. */
  lemma AfterStartFast(env: Env)
    requires FastExit(env)
    ensures AfterStart(env).0 ==
      [Log("Exiting immediately due to BOOT_PYTHON_TEST_EXIT_AFTER_HANDSHAKE=1"), Stop(None)]
      + (if env.stopFault.None? then [Log("boot-python stopped")] else [])
  {
  }

  /** Otherwise after the start: the handlers, the flag loop, and "boot-python stopped" once the loop ends. */
  lemma AfterStartLoop(env: Env)
    requires !FastExit(env)
    ensures AfterStart(env).0 ==
      [InstallHandlers] + PollUntilFlag(env.schedule, OnSignal, env.stopFault).events
      + (if PollUntilFlag(env.schedule, OnSignal, env.stopFault).end.Waiting? then [] else [Log("boot-python stopped")])
  {
  }

  lemma {:induction false} AnnounceWrites(env: Env)
    ensures Writes(Announce(env)) == [Line(LoopbackHost, env.port)]
  {
    var a := Announce(env);
    assert a == a[..2] + a[2..3] + a[3..];
    NoStdoutNoWrites(a[..2]);
    NoStdoutNoWrites(a[3..]);
    WritesAppend(a[..2], a[2..3]);
    WritesAppend(a[..2] + a[2..3], a[3..]);
  }

  lemma AfterStartWritesNothing(env: Env)
    ensures Writes(AfterStart(env).0) == []
  {
    if FastExit(env) {
      AfterStartFast(env);
      NoStdoutNoWrites(AfterStart(env).0);
    } else {
      AfterStartLoop(env);
      var loop := PollUntilFlag(env.schedule, OnSignal, env.stopFault);
      var tail: seq<Event> := if loop.end.Waiting? then [] else [Log("boot-python stopped")];
      forall s: Sig
        ensures Writes(OnSignal(s)) == []
      {
        NoStdoutNoWrites(OnSignal(s));
      }
      PollWritesNothing(env.schedule, OnSignal, env.stopFault);
      NoStdoutNoWrites(tail);
      WritesAppend([InstallHandlers], loop.events);
      WritesAppend([InstallHandlers] + loop.events, tail);
    }
  }

  /** After the start, the run never starts the server again. */
  lemma AfterStartStartsNothing(env: Env)
    ensures Start !in AfterStart(env).0
  {
    if FastExit(env) {
      AfterStartFast(env);
    } else {
      AfterStartLoop(env);
      PollAvoids(env.schedule, OnSignal, env.stopFault, Start);
    }
  }

  /** Stdout receives the handshake line, without a newline, exactly once, in every run. */
  lemma MainWritesHandshakeOnce(env: Env)
    ensures Writes(Main(env).trace) == [Line(LoopbackHost, env.port)]
    ensures Parse(Writes(Main(env).trace)[0]) == Some(Address(LoopbackHost, env.port))
  {
    AnnounceWrites(env);
    AfterStartWritesNothing(env);
    WritesAppend(Announce(env), AfterStart(env).0);
    ParseLine(LoopbackHost, env.port);
  }

  /** In every run stdout is written only at position 2, and the server started only at position 4. */
  lemma MainEventPositions(env: Env)
    ensures |Main(env).trace| > 4 && Main(env).trace[2].Stdout? && Main(env).trace[4] == Start
    ensures forall i :: 0 <= i < |Main(env).trace| && Main(env).trace[i].Stdout? ==> i == 2
    ensures forall i :: 0 <= i < |Main(env).trace| && Main(env).trace[i] == Start ==> i == 4
  {
    var t := Main(env).trace;
    var a := Announce(env);
    var rest := AfterStart(env).0;
    MainSplit(env);
    AnnounceEvents(env);
    AfterStartWritesNothing(env);
    NoWritesNoStdout(rest);
    AfterStartStartsNothing(env);
    forall i | 0 <= i < |t|
      ensures t[i].Stdout? ==> i == 2
      ensures t[i] == Start ==> i == 4
    {
      if i < |a| {
        assert t[i] == a[i];
      } else {
        assert t[i] == rest[i - |a|];
      }
    }
  }

  /** The handshake is written before the server starts: every stdout write precedes every start. */
  lemma HandshakeBeforeStart(env: Env)
    ensures exists i, j :: 0 <= i < j < |Main(env).trace| && Main(env).trace[i].Stdout? && Main(env).trace[j] == Start
    ensures forall i, j ::
      (0 <= i < |Main(env).trace| && 0 <= j < |Main(env).trace| && Main(env).trace[i].Stdout? && Main(env).trace[j] == Start)
      ==> i < j
  {
    MainEventPositions(env);
  }

  /** A run is the announcement followed by what happens after the start. */
  lemma MainSplit(env: Env)
    ensures Main(env).trace == Announce(env) + AfterStart(env).0
  {
  }

  /** The announcement as literal events. */
  lemma AnnounceEvents(env: Env)
    ensures Announce(env) == [Probe(LoopbackHost, env.port),
                              AddPort(LoopbackHost + ":" + DecimalString(env.port), if env.rebindOk then env.port else 0),
                              Stdout(Line(LoopbackHost, env.port)), Flush, Start,
                              Log("boot-python started on " + LoopbackHost + ":" + DecimalString(env.port))]
  {
  }

  /** The server is started exactly once per run. */
  lemma MainStartsOnce(env: Env)
    ensures Occurrences(Main(env).trace, Start) == 1
  {
    var port := DecimalString(env.port);
    MainSplit(env);
    AnnounceEvents(env);
    AfterStartStartsNothing(env);
    StartOnceIn(Probe(LoopbackHost, env.port), AddPort(LoopbackHost + ":" + port, if env.rebindOk then env.port else 0),
                Stdout(Line(LoopbackHost, env.port)), Flush, Log("boot-python started on " + LoopbackHost + ":" + port),
                AfterStart(env).0);
  }

  /** A trace shaped like `main`'s, whose tail never starts the server, starts it once. */
  lemma StartOnceIn(probe: Event, bind: Event, write: Event, flush: Event, log: Event, rest: seq<Event>)
    requires probe != Start && bind != Start && write != Start && flush != Start && log != Start
    requires Start !in rest
    ensures Occurrences([probe, bind, write, flush, Start, log] + rest, Start) == 1
  {
    OccurrencesAppend([probe, bind, write, flush, Start, log], rest, Start);
  }

  /** The signal loop is skipped exactly when the variable is "1"; any other value waits for a signal. */
  lemma FastExitOnlyForOne(env: Env)
    ensures InstallHandlers !in Main(env).trace <==> FastExit(env)
  {
    MainSplit(env);
    AnnounceEvents(env);
    if FastExit(env) {
      AfterStartFast(env);
    } else {
      AfterStartLoop(env);
      assert Main(env).trace[|Announce(env)|] == InstallHandlers;
    }
  }

  lemma OnSignalStops()
    ensures StopsServer(OnSignal)
  {
    forall s: Sig, q: nat, stopped: bool
      ensures Replay(Phase(q, true, true, stopped), OnSignal(s)) == Some(Phase(q, true, true, true))
    {
      var stoppedPhase := Phase(q, true, true, true);
      var events := OnSignal(s);
      assert Replay(stoppedPhase, events[3..]) == Some(stoppedPhase);
      assert Replay(Phase(q, true, true, stopped), events[2..]) == Some(stoppedPhase);
      assert Replay(Phase(q, true, true, stopped), events[1..]) == Some(stoppedPhase);
    }
  }

  /** The announcement follows the protocol exactly when the server really got the announced port. */
  lemma AnnounceServesIff(env: Env)
    ensures Replay(Initial, Announce(env)).Some? <==> env.rebindOk && env.port != 0
    ensures env.rebindOk && env.port != 0 ==> Replay(Initial, Announce(env)) == Some(Phase(env.port, true, true, false))
  {
    var p := env.port;
    var a := Announce(env);
    var bound := if env.rebindOk then p else 0;
    var address := LoopbackHost + ":" + DecimalString(p);
    assert StartsWith(address, LoopbackHost + ":");
    assert a[1] == AddPort(address, bound);
    assert Step(Initial, a[0]) == Some(Initial);
    assert Step(Initial, a[1]) == Some(Phase(bound, false, false, false));
    if env.rebindOk && p != 0 {
      var serving := Phase(p, true, true, false);
      assert IsHandshakeFor(Line(LoopbackHost, p), p);
      assert Replay(serving, a[5..]) == Some(serving);
      assert Replay(Phase(p, false, true, false), a[4..]) == Some(serving);
      assert Replay(Phase(p, false, true, false), a[3..]) == Some(serving);
      assert Replay(Phase(p, false, false, false), a[2..]) == Some(serving);
      assert Replay(Initial, a[1..]) == Some(serving);
    } else {
      assert Step(Phase(0, false, false, false), a[2]) == None;
      assert Replay(Phase(0, false, false, false), a[2..]) == None;
      assert Replay(Initial, a[1..]) == None;
    }
  }

  lemma WaitConforms(env: Env, p: nat)
    ensures Replay(Phase(p, true, true, false), [InstallHandlers] + PollUntilFlag(env.schedule, OnSignal, env.stopFault).events)
         == Some(Phase(p, true, true, AnySignal(env.schedule)))
  {
    OnSignalStops();
    PollConforms(env.schedule, OnSignal, env.stopFault, p);
    ReplayAppend(Phase(p, true, true, false), [InstallHandlers], PollUntilFlag(env.schedule, OnSignal, env.stopFault).events);
  }

  /**
   A run follows the handshake protocol exactly when re-binding the probed
   port succeeds. Under the convention that a failed bind returns 0 rather
   than raising, the line otherwise announces a port the server never bound.
   */
  lemma MainConformsIff(env: Env)
    ensures Conforms(Main(env)) <==> env.rebindOk && env.port != 0
  {
    MainSplit(env);
    AnnounceServesIff(env);
    ReplayAppend(Initial, Announce(env), AfterStart(env).0);
    if env.rebindOk && env.port != 0 {
      AfterStartConforms(env);
    }
  }

  /** From serving, what follows the start keeps to the protocol and stops the server once test mode or a signal ends the wait. */
  lemma AfterStartConforms(env: Env)
    ensures Replay(Phase(env.port, true, true, false), AfterStart(env).0)
         == Some(Phase(env.port, true, true, FastExit(env) || AnySignal(env.schedule)))
  {
    if FastExit(env) {
      FastExitConforms(env);
    } else {
      LoopConforms(env);
    }
  }

  lemma FastExitConforms(env: Env)
    requires FastExit(env)
    ensures Replay(Phase(env.port, true, true, false), AfterStart(env).0) == Some(Phase(env.port, true, true, true))
  {
    var serving := Phase(env.port, true, true, false);
    var stopped := serving.(stopped := true);
    var exiting := Log("Exiting immediately due to BOOT_PYTHON_TEST_EXIT_AFTER_HANDSHAKE=1");
    var tail: seq<Event> := if env.stopFault.None? then [Log("boot-python stopped")] else [];
    AfterStartFast(env);
    assert Replay(stopped, tail) == Some(stopped);
    ReplayCons(serving, Stop(None), tail);
    ReplayCons(serving, exiting, [Stop(None)] + tail);
    assert AfterStart(env).0 == [exiting] + ([Stop(None)] + tail);
  }

  lemma LoopConforms(env: Env)
    requires !FastExit(env)
    ensures Replay(Phase(env.port, true, true, false), AfterStart(env).0)
         == Some(Phase(env.port, true, true, AnySignal(env.schedule)))
  {
    var serving := Phase(env.port, true, true, false);
    var loop := PollUntilFlag(env.schedule, OnSignal, env.stopFault);
    AfterStartLoop(env);
    WaitConforms(env, env.port);
    if !loop.end.Waiting? {
      ReplayAppend(serving, [InstallHandlers] + loop.events, [Log("boot-python stopped")]);
    } else {
      assert AfterStart(env).0 == [InstallHandlers] + loop.events;
    }
  }
}

=== FILE: src_boot_server.dfy ===
/**
 The request handler of the `src/boot_python` package: a fixed whitelist of
 prompt files, and a summariser that sends every input, the empty one
 included, through the TOML parser.
 */
module SrcBootServer {
  import opened PyRuntime
  import opened TomlValue
  import opened PromptFiles
  import opened Rpc
  import opened Summary

  /** The only prompt files this variant looks for, in the order it tries them. */
  const PromptNames: seq<string> :=
    ["base_instructions.txt", "language_rules.txt", "review_instructions.txt", "README.md.template"]

  /** `fp.exists()` is false, or the path is a file that reads as text. */
  predicate Loadable(dir: Directory, name: string) {
    match Lookup(dir, name)
    case None => true
    case Some(kind) => kind.RegularFile? && kind.content.Text?
  }

  /** The exception `_read_text` raises for a path that exists but cannot be read as text. */
  function ReadFailure(kind: Kind, name: string): Exception {
    match kind
    case RegularFile(Unreadable(e)) => e
    case _ => IsADirectoryError(name)
  }

  /**
   The loop of `_load_prompts` over `names`: a missing file is skipped (with a
   warning on stderr), an existing one is read, and a failed read propagates.
   */
  function LoadNames(dir: Directory, names: seq<string>): (r: Result<map<string, string>, Exception>)
    ensures r.Success? <==> forall i :: 0 <= i < |names| ==> Loadable(dir, names[i])
    ensures r.Success? ==> forall k :: k in r.value <==> k in names && Lookup(dir, k).Some?
    ensures r.Success? ==> forall k :: k in r.value ==> Lookup(dir, k) == Some(RegularFile(Text(r.value[k])))
    ensures r.Failure? ==>
      exists i :: 0 <= i < |names| && !Loadable(dir, names[i])
        && (forall j :: 0 <= j < i ==> Loadable(dir, names[j]))
        && r.error == ReadFailure(Lookup(dir, names[i]).value, names[i])
  {
    if |names| == 0 then Success(map[])
    else
      var earlier := names[..|names| - 1];
      var name := names[|names| - 1];
      assert forall i :: 0 <= i < |earlier| ==> earlier[i] == names[i];
      assert forall k :: k in names <==> k in earlier || k == name;
      var acc :- LoadNames(dir, earlier);
      match Lookup(dir, name)
      case None => Success(acc)
      case Some(RegularFile(Text(t))) => Success(acc[name := t])
      case Some(kind) => Failure(ReadFailure(kind, name))
  }

  /**
   `_load_prompts()`: exactly the whitelisted names that exist, each with its
   text, or the exception of the first whitelisted name that cannot be read.
   */
  function LoadPrompts(dir: Directory): (r: Result<map<string, string>, Exception>)
    ensures r.Success? <==> forall i :: 0 <= i < |PromptNames| ==> Loadable(dir, PromptNames[i])
    ensures r.Success? ==> forall k :: k in r.value <==> k in PromptNames && Lookup(dir, k).Some?
    ensures r.Success? ==> forall k :: k in r.value ==> Lookup(dir, k) == Some(RegularFile(Text(r.value[k])))
    ensures r.Failure? ==>
      exists i :: 0 <= i < |PromptNames| && !Loadable(dir, PromptNames[i])
        && (forall j :: 0 <= j < i ==> Loadable(dir, PromptNames[j]))
        && r.error == ReadFailure(Lookup(dir, PromptNames[i]).value, PromptNames[i])
  {
    LoadNames(dir, PromptNames)
  }

  /** The body of the `try` in `_derive_user_spec_prompt`; any exception leaves it. */
  function TrySummary(parse: Parser, specToml: string): Result<string, Exception> {
    var data :- parse(specToml);
    var project :- Get(data, "project", EmptyTable);
    var name :- Get(project, "name", Str("unknown-project"));
    // once `project.get` has worked, `project` is a table and the next two cannot fail
    var descr := Get(project, "description", Str("")).value;
    var lang := Get(project, "language", Str("python")).value;
    Success(Sentence(Show(lang), Show(name), Show(descr)))
  }

  /**
   `_derive_user_spec_prompt`: never raises. A parsed document whose top level
   and `project` entry are tables gives the composed sentence, with the
   defaults "unknown-project", "" and "python" for absent keys and a missing
   `project` read as an empty table; anything else gives the fallback.
   */
  function DeriveUserSpecPrompt(parse: Parser, specToml: string): (r: string)
    ensures parse(specToml).Failure? ==> r == Fallback
    ensures parse(specToml).Success? && !parse(specToml).value.Table? ==> r == Fallback
    ensures parse(specToml).Success? && parse(specToml).value.Table? ==>
      var top := parse(specToml).value.entries;
      if "project" !in top then
        r == Sentence("python", "unknown-project", "")
      else if !top["project"].Table? then
        r == Fallback
      else
        var project := top["project"].entries;
        r == Sentence(FieldOr(project, "language", "python"),
                      FieldOr(project, "name", "unknown-project"),
                      FieldOr(project, "description", ""))
  {
    match TrySummary(parse, specToml)
    case Success(s) => s
    case Failure(_) => Fallback
  }

  /** `GetPromptComponents`: no `try`, so a failed prompt read escapes the handler. */
  function GetPromptComponents(dir: Directory, parse: Parser, request: Request): (r: Outcome)
    ensures r.Reply? <==> forall i :: 0 <= i < |PromptNames| ==> Loadable(dir, PromptNames[i])
    ensures r.Reply? ==> r.code == OK && r.details == ""
    ensures r.Reply? ==> r.response.components.Keys <= set n | n in PromptNames
    ensures r.Reply? ==> forall n :: n in PromptNames ==> (n in r.response.components <==> Lookup(dir, n).Some?)
    ensures r.Reply? ==> LoadPrompts(dir).Success? && r.response.components == LoadPrompts(dir).value
    ensures r.Reply? ==>
      forall n :: n in r.response.components ==> Lookup(dir, n) == Some(RegularFile(Text(r.response.components[n])))
    ensures r.Reply? ==> r.response.userSpecPrompt == DeriveUserSpecPrompt(parse, SpecText(request))
    ensures r.Escaped? ==> LoadPrompts(dir).Failure? && r.exception == LoadPrompts(dir).error
  {
    match LoadPrompts(dir)
    case Failure(e) => Escaped(e)
    case Success(components) =>
      Reply(OK, "", Response(components, DeriveUserSpecPrompt(parse, SpecText(request))))
  }

  /** Every summary, parsed or fallback, carries the word "Description". */
  lemma SummaryMentionsDescription(parse: Parser, specToml: string)
    ensures Contains(DeriveUserSpecPrompt(parse, specToml), "Description")
  {
    match TrySummary(parse, specToml)
    case Success(_) =>
      var data := parse(specToml).value;
      var project := Get(data, "project", EmptyTable).value;
      SentenceMentionsDescription(
        Show(Get(project, "language", Str("python")).value),
        Show(Get(project, "name", Str("unknown-project")).value),
        Show(Get(project, "description", Str("")).value));
    case Failure(_) =>
      FallbackMentionsDescription();
  }

  /**
   The empty spec is parsed like any other: with a parser that reads it as an
   empty document (as `tomllib` does) the summary is the all-defaults sentence,
   not the fallback.
   */
  lemma EmptySpecIsParsed(parse: Parser)
    requires parse("") == Success(EmptyTable)
    ensures DeriveUserSpecPrompt(parse, "") == Sentence("python", "unknown-project", "")
    ensures DeriveUserSpecPrompt(parse, "") != Fallback
  {
    SentenceIsNeverFallback("python", "unknown-project", "");
  }

  /** A request without the field is answered like one carrying the empty spec. */
  lemma AbsentSpecIsEmptySpec(dir: Directory, parse: Parser)
    ensures GetPromptComponents(dir, parse, Request(None)) == GetPromptComponents(dir, parse, Request(Some("")))
  {
  }
}

=== FILE: src_main.dfy ===
/**
 The entry point of the `src` package: bind the loopback with an OS-chosen
 port, write the handshake followed by a newline, start, and block
 until termination; Ctrl-C (SIGINT, raised as KeyboardInterrupt) logs and
 stops the server.
 */
module SrcMain {
  import opened PyRuntime
  import opened Handshake
  import opened Lifecycle

  const EphemeralAddress := LoopbackHost + ":0"

  /** `serve()` up to the blocking wait. The port `add_insecure_port` returns is printed unchecked. */
  function Announce(env: Env): seq<Event> {
    [ AddPort(EphemeralAddress, env.port),
      Stdout(Line(LoopbackHost, env.port) + "\n"),
      Flush,
      Start,
      Log("Plugin server started on " + LoopbackHost + ":" + DecimalString(env.port)),
      WaitForTermination ]
  }

  /**
   How `wait_for_termination` ends: SIGINT raises KeyboardInterrupt, which is
   logged and answered with `stop(0)` (a fault of that `stop`, raised inside
   the `except` block, leaves `serve`); SIGTERM has no handler here and kills
   the process; with no signal the process is still waiting.
   */
  function AfterWait(env: Env): (r: (seq<Event>, Exit))
    ensures r.1 == Returned <==> FirstSignal(env.schedule) == Some(SigInt) && env.stopFault.None?
    ensures r.1.Raised? <==> FirstSignal(env.schedule) == Some(SigInt) && env.stopFault.Some?
    ensures r.1.Raised? ==> Some(r.1.exception) == env.stopFault
    ensures r.1 == StillWaiting <==> !AnySignal(env.schedule)
    ensures r.1.Killed? ==> r.1 == Killed(SigTerm)
    ensures FirstSignal(env.schedule) == Some(SigInt) ==>
      |r.0| >= 2 && r.0[|r.0| - 2..] == [Log("Server shutting down."), Stop(Some(0))]
    ensures Start !in r.0 && WaitForTermination !in r.0
  {
    match FirstSignal(env.schedule)
    case None => ([], StillWaiting)
    case Some(SigInt) =>
      var events := [Signal(SigInt), Log("Server shutting down."), Stop(Some(0))];
      (match env.stopFault
       case None => (events, Returned)
       case Some(e) => (events, Raised(e)))
    case Some(SigTerm) => ([Signal(SigTerm)], Killed(SigTerm))
  }

  /** `serve()`. */
  function Serve(env: Env): (r: Run)
    ensures r.exit == Returned <==> FirstSignal(env.schedule) == Some(SigInt) && env.stopFault.None?
    ensures r.exit.Killed? <==> FirstSignal(env.schedule) == Some(SigTerm)
    ensures r.exit.Killed? ==> r.exit == Killed(SigTerm)
    ensures r.exit.Raised? <==> FirstSignal(env.schedule) == Some(SigInt) && env.stopFault.Some?
    ensures r.exit.Raised? ==> Some(r.exit.exception) == env.stopFault
    ensures |r.trace| > 0 && r.trace[0] == AddPort("127.0.0.1:0", env.port)
  {
    var (rest, exit) := AfterWait(env);
    assert (Announce(env) + rest)[0] == AddPort(EphemeralAddress, env.port);
    Run(Announce(env) + rest, exit)
  }

  /** `main()`: the console entry point, which runs `serve()` once. */
  function Main(env: Env): Run {
    Serve(env)
  }

  /** A run of `serve` is the announcement followed by how the wait ended. */
  lemma ServeSplit(env: Env)
    ensures Serve(env).trace == Announce(env) + AfterWait(env).0
  {
  }

  lemma AnnounceWrites(env: Env)
    ensures Writes(Announce(env)) == [Line(LoopbackHost, env.port) + "\n"]
  {
    var a := Announce(env);
    assert a == a[..1] + a[1..2] + a[2..];
    NoStdoutNoWrites(a[..1]);
    NoStdoutNoWrites(a[2..]);
    WritesAppend(a[..1], a[1..2]);
    WritesAppend(a[..1] + a[1..2], a[2..]);
  }

  /** Stdout receives the handshake line and its newline, once, whatever happens afterwards. */
  lemma ServeWritesHandshakeOnce(env: Env)
    ensures Writes(Serve(env).trace) == [Line(LoopbackHost, env.port) + "\n"]
    ensures Parse(Writes(Serve(env).trace)[0]) == Some(Address(LoopbackHost, env.port))
  {
    ServeSplit(env);
    AnnounceWrites(env);
    NoStdoutNoWrites(AfterWait(env).0);
    WritesAppend(Announce(env), AfterWait(env).0);
    ParseLine(LoopbackHost, env.port);
  }

  /** The handshake is printed before the server starts. */
  lemma HandshakeBeforeStart(env: Env)
    ensures exists i, j :: 0 <= i < j < |Serve(env).trace| && Serve(env).trace[i].Stdout? && Serve(env).trace[j] == Start
    ensures forall i, j :: (0 <= i < |Serve(env).trace| && 0 <= j < |Serve(env).trace|
      && Serve(env).trace[i].Stdout? && Serve(env).trace[j] == Start) ==> i < j
  {
    var t := Serve(env).trace;
    var rest := AfterWait(env).0;
    var n := |Announce(env)|;
    ServeSplit(env);
    assert t[..n] == Announce(env);
    assert t[1].Stdout? && t[3] == Start;
    assert forall k :: 0 <= k < |rest| ==> !rest[k].Stdout? && rest[k] != Start;
    assert forall k :: n <= k < |t| ==> t[k] == rest[k - n];
  }

  /** `str(54321)`, the port the test suite binds. */
  lemma TestPortSpelling()
    ensures DecimalString(54321) == "54321"
  {
    assert DecimalString(5) == "5";
    assert DecimalString(54) == "54";
    assert DecimalString(543) == "543";
    assert DecimalString(5432) == "5432";
  }

  /** The exact bytes the test suite expects on stdout for port 54321. */
  lemma TestHandshakeLine()
    ensures Line(LoopbackHost, 54321) + "\n" == "1|1|tcp|127.0.0.1:54321|grpc\n"
  {
    TestPortSpelling();
  }

  /** In a six-event announcement shaped like `serve`'s, `Start` and the blocking wait happen once each. */
  lemma {:induction false} OnceEach(bind: Event, write: Event, flush: Event, log: Event)
    requires bind != Start && write != Start && flush != Start && log != Start
    requires bind != WaitForTermination && write != WaitForTermination && flush != WaitForTermination
    requires log != WaitForTermination
    ensures Occurrences([bind, write, flush, Start, log, WaitForTermination], Start) == 1
    ensures Occurrences([bind, write, flush, Start, log, WaitForTermination], WaitForTermination) == 1
  {
  }

  /** The announcement starts the server once and blocks once. */
  lemma AnnounceOccurrences(env: Env)
    ensures Occurrences(Announce(env), Start) == 1
    ensures Occurrences(Announce(env), WaitForTermination) == 1
  {
    OnceEach(AddPort(EphemeralAddress, env.port), Stdout(Line(LoopbackHost, env.port) + "\n"), Flush,
             Log("Plugin server started on " + LoopbackHost + ":" + DecimalString(env.port)));
  }

  /** One start and one blocking wait, whatever signal arrives. */
  lemma ServeStartsOnce(env: Env)
    ensures Occurrences(Serve(env).trace, Start) == 1
    ensures Occurrences(Serve(env).trace, WaitForTermination) == 1
  {
    var a := Announce(env);
    var rest := AfterWait(env).0;
    AnnounceOccurrences(env);
    OccurrencesAppend(a, rest, Start);
    OccurrencesAppend(a, rest, WaitForTermination);
  }

  /** With port 54321, stdout is exactly "1|1|tcp|127.0.0.1:54321|grpc" and a newline. */
  lemma ServeTestStdout(env: Env)
    requires env.port == 54321
    ensures Writes(Serve(env).trace) == ["1|1|tcp|127.0.0.1:54321|grpc\n"]
  {
    ServeWritesHandshakeOnce(env);
    TestHandshakeLine();
  }

  /** After Ctrl-C the run ends with the shutdown message and then `stop(0)`. */
  lemma ServeInterruptTail(env: Env)
    requires FirstSignal(env.schedule) == Some(SigInt)
    ensures Serve(env).trace[|Serve(env).trace| - 2..] == [Log("Server shutting down."), Stop(Some(0))]
  {
    var a := Announce(env);
    var rest := AfterWait(env).0;
    assert (a + rest)[|a + rest| - 2..] == rest[|rest| - 2..];
  }

  /**
   SIGINT ends the run with the server stopped by `stop(0)`: cleanly, or
   raising what that `stop` raised.
   */
  lemma InterruptStopsServer(env: Env)
    requires FirstSignal(env.schedule) == Some(SigInt)
    ensures env.stopFault.None? ==> Serve(env).exit == Returned
    ensures env.stopFault.Some? ==> Serve(env).exit == Raised(env.stopFault.value)
    ensures Stop(Some(0)) in Serve(env).trace
  {
    var t := Serve(env).trace;
    assert t[|t| - 1] == Stop(Some(0));
  }

  /** `main()` runs `serve()` once: one bind, one start, one wait. */
  lemma MainServesOnce(env: Env)
    ensures Main(env) == Serve(env)
    ensures Occurrences(Main(env).trace, Start) == 1
    ensures Occurrences(Main(env).trace, WaitForTermination) == 1
  {
    ServeStartsOnce(env);
  }

  /**
   A run follows the handshake protocol exactly when the bind returned a real
   port. Under the convention that a failed bind returns 0 rather than
   raising, a zero port is printed anyway, announcing an address nobody
   serves.
   */
  lemma ServeConformsIff(env: Env)
    ensures Conforms(Serve(env)) <==> env.port != 0
  {
    var p := env.port;
    var a := Announce(env);
    var rest := AfterWait(env).0;
    ReplayAppend(Initial, a, rest);
    if p != 0 {
      AnnounceServes(env);
      AfterWaitConforms(env);
    } else {
      AnnounceUnserved(env);
    }
  }

  lemma AnnounceServes(env: Env)
    requires env.port != 0
    ensures Replay(Initial, Announce(env)) == Some(Phase(env.port, true, true, false))
  {
    var p := env.port;
    var a := Announce(env);
    var serving := Phase(p, true, true, false);
    assert StartsWith(EphemeralAddress, LoopbackHost + ":");
    assert Step(Initial, a[0]) == Some(Phase(p, false, false, false));
    assert IsHandshakeFor(a[1].text, p);
    assert Replay(serving, a[5..]) == Some(serving);
    assert Replay(serving, a[4..]) == Some(serving);
    assert Replay(Phase(p, false, true, false), a[3..]) == Some(serving);
    assert Replay(Phase(p, false, true, false), a[2..]) == Some(serving);
    assert Replay(Phase(p, false, false, false), a[1..]) == Some(serving);
  }

  lemma AnnounceUnserved(env: Env)
    requires env.port == 0
    ensures Replay(Initial, Announce(env)) == None
  {
    var a := Announce(env);
    assert StartsWith(EphemeralAddress, LoopbackHost + ":");
    assert Step(Initial, a[0]) == Some(Phase(0, false, false, false));
    assert Step(Phase(0, false, false, false), a[1]) == None;
  }

  /** The events of each ending of the wait, as literals. */
  lemma AfterWaitEvents(env: Env)
    ensures FirstSignal(env.schedule) == Some(SigInt) ==>
      AfterWait(env).0 == [Signal(SigInt), Log("Server shutting down."), Stop(Some(0))]
    ensures FirstSignal(env.schedule) == Some(SigTerm) ==> AfterWait(env).0 == [Signal(SigTerm)]
    ensures FirstSignal(env.schedule) == None ==> AfterWait(env).0 == []
  {
  }

  /** The Ctrl-C ending, replayed from the serving phase, leaves the server stopped. */
  lemma InterruptReplays(p: nat)
    ensures Replay(Phase(p, true, true, false), [Signal(SigInt), Log("Server shutting down."), Stop(Some(0))])
         == Some(Phase(p, true, true, true))
  {
    var serving := Phase(p, true, true, false);
    var stopped := serving.(stopped := true);
    var shutdown := Log("Server shutting down.");
    assert [Signal(SigInt), shutdown, Stop(Some(0))] == [Signal(SigInt)] + ([shutdown] + ([Stop(Some(0))] + []));
    ReplayCons(stopped, Stop(Some(0)), []);
    ReplayCons(serving, shutdown, [Stop(Some(0))] + []);
    ReplayCons(serving, Signal(SigInt), [shutdown] + ([Stop(Some(0))] + []));
  }

  lemma InterruptConforms(env: Env)
    requires FirstSignal(env.schedule) == Some(SigInt)
    ensures Replay(Phase(env.port, true, true, false), AfterWait(env).0) == Some(Phase(env.port, true, true, true))
  {
    AfterWaitEvents(env);
    InterruptReplays(env.port);
  }

  lemma TerminateConforms(env: Env)
    requires FirstSignal(env.schedule) == Some(SigTerm)
    ensures Replay(Phase(env.port, true, true, false), AfterWait(env).0) == Some(Phase(env.port, true, true, false))
  {
    AfterWaitEvents(env);
    TerminateReplays(env.port);
  }

  /** The SIGTERM ending, replayed from the serving phase, leaves the server serving: nothing stops it. */
  lemma TerminateReplays(p: nat)
    ensures Replay(Phase(p, true, true, false), [Signal(SigTerm)]) == Some(Phase(p, true, true, false))
  {
    ReplayCons(Phase(p, true, true, false), Signal(SigTerm), []);
    assert [Signal(SigTerm)] + [] == [Signal(SigTerm)];
  }

  lemma StillWaitingConforms(env: Env)
    requires FirstSignal(env.schedule) == None
    ensures Replay(Phase(env.port, true, true, false), AfterWait(env).0) == Some(Phase(env.port, true, true, false))
  {
    AfterWaitEvents(env);
  }

  /** From the serving phase the end of `serve` is accepted, and SIGINT leaves the server stopped. */
  lemma AfterWaitConforms(env: Env)
    ensures FirstSignal(env.schedule) == Some(SigInt) ==>
      Replay(Phase(env.port, true, true, false), AfterWait(env).0) == Some(Phase(env.port, true, true, true))
    ensures FirstSignal(env.schedule) != Some(SigInt) ==>
      Replay(Phase(env.port, true, true, false), AfterWait(env).0) == Some(Phase(env.port, true, true, false))
  {
    match FirstSignal(env.schedule)
    case Some(SigInt) => InterruptConforms(env);
    case Some(SigTerm) => TerminateConforms(env);
    case None => StillWaitingConforms(env);
  }
}

=== FILE: src_server.dfy ===
/**
 The request handler of the `src` package: every regular file of the
 `prompts` directory beside the package, a summariser that reports a decode
 error in the summary itself, and one `try` around the whole response that is
 meant to turn any other fault into an INTERNAL status.
 */
module SrcServer {
  import opened PyRuntime
  import opened TomlValue
  import opened PromptFiles
  import opened Rpc

  const Header := "--- USER SPECIFICATION ---\n"
  const InvalidTomlNotice := Header + "Error: Invalid TOML format provided."

  /** `Path(root) / name`. */
  function JoinPath(root: string, name: string): string {
    if EndsWith(root, "/") then root + name else root + "/" + name
  }

  /** `get_prompts_path()`, for the project root `root` and what lies at `root/prompts`. */
  function GetPromptsPath(root: string, prompts: Directory): (r: Result<string, Exception>)
    ensures r.Success? <==> prompts.Listing?
    ensures r.Success? ==>
      StartsWith(r.value, root) && r.value[|root|..] in {"/prompts", "prompts"} && EndsWith(r.value, "/prompts")
    ensures r.Failure? ==> r.error == FileNotFoundError("Could not find 'prompts' directory at " + JoinPath(root, "prompts"))
  {
    var path := JoinPath(root, "prompts");
    assert StartsWith(path, root);
    assert EndsWith(path, "/prompts");
    if prompts.Missing? then
      Failure(FileNotFoundError("Could not find 'prompts' directory at " + path))
    else
      Success(path)
  }

  /** The error for a missing directory names exactly the path an existing one would be found at. */
  lemma MissingPromptsNamesPath(root: string, entries: seq<Entry>)
    ensures GetPromptsPath(root, Missing).error.detail
         == "Could not find 'prompts' directory at " + GetPromptsPath(root, Listing(entries)).value
  {
  }

  /** Entry `i` is the first regular file of `entries` whose read raises, and it raises `err`. */
  predicate FirstUnreadableAt(entries: seq<Entry>, i: int, err: Exception) {
    0 <= i < |entries| && entries[i].kind == RegularFile(Unreadable(err))
    && forall j :: 0 <= j < i && entries[j].kind.RegularFile? ==> IsReadableFile(entries[j])
  }

  /**
   The `os.scandir` loop: every regular file is read, in enumeration order; a
   read that raises aborts the whole scan.
   */
  function ScanFiles(entries: seq<Entry>): (r: Result<map<string, string>, Exception>)
    ensures r.Success? <==> forall i :: 0 <= i < |entries| && entries[i].kind.RegularFile? ==> IsReadableFile(entries[i])
    ensures r.Success? ==> forall k :: k in r.value <==> exists i :: 0 <= i < |entries| && entries[i].name == k && entries[i].kind.RegularFile?
    ensures r.Success? && DistinctNames(entries) ==>
      forall i :: 0 <= i < |entries| && entries[i].kind.RegularFile? ==> r.value[entries[i].name] == entries[i].kind.content.text
    ensures r.Failure? ==> exists i :: FirstUnreadableAt(entries, i, r.error)
  {
    if |entries| == 0 then Success(map[])
    else
      var n := |entries| - 1;
      var earlier := entries[..n];
      var e := entries[n];
      assert forall i :: 0 <= i < n ==> earlier[i] == entries[i];
      assert DistinctNames(entries) ==> DistinctNames(earlier);
      var scanned := ScanFiles(earlier);
      if scanned.Failure? then
        var i :| FirstUnreadableAt(earlier, i, scanned.error);
        assert FirstUnreadableAt(entries, i, scanned.error);
        Failure(scanned.error)
      else
        var acc := scanned.value;
        match e.kind
        case Subdirectory => Success(acc)
        case RegularFile(Text(t)) => Success(acc[e.name := t])
        case RegularFile(Unreadable(err)) =>
          assert FirstUnreadableAt(entries, n, err);
          Failure(err)
  }

  /**
   `format_spec_for_prompt`: only a TOML decode error is caught, and it is
   reported inside the summary; any other exception, from the parser or from
   `.get` on a value that is not a table, propagates. The description is the
   top-level key, the name comes from the `project` table.
   */
  function FormatSpecForPrompt(parse: Parser, content: string): (r: Result<string, Exception>)
    ensures r.Success? ==> StartsWith(r.value, Header)
    ensures parse(content).Failure? && parse(content).error.TomlDecodeError? ==> r == Success(InvalidTomlNotice)
    ensures parse(content).Failure? && !parse(content).error.TomlDecodeError? ==> r == Failure(parse(content).error)
    ensures parse(content).Success? ==>
      var spec := parse(content).value;
      if !spec.Table? then
        r == Failure(AttributeError("'" + TypeName(spec) + "' object has no attribute 'get'"))
      else if "project" in spec.entries && !spec.entries["project"].Table? then
        r == Failure(AttributeError("'" + TypeName(spec.entries["project"]) + "' object has no attribute 'get'"))
      else
        var project := if "project" in spec.entries then spec.entries["project"].entries else map[];
        r == Success(Header + "Project Name: " + FieldOr(project, "name", "Unnamed project")
                     + "\nDescription: " + FieldOr(spec.entries, "description", "No description provided."))
  {
    match parse(content)
    case Failure(e) =>
      if e.TomlDecodeError? then Success(InvalidTomlNotice) else Failure(e)
    case Success(spec) =>
      var description :- Get(spec, "description", Str("No description provided."));
      // once `spec.get` has worked, `spec` is a table and its second `.get` cannot fail
      var project := Get(spec, "project", EmptyTable).value;
      var projectName :- Get(project, "name", Str("Unnamed project"));
      Success(Header + "Project Name: " + Show(projectName) + "\nDescription: " + Show(description))
  }

  /** Everything inside the handler's `try`: locate, scan, summarise, respond. */
  function AssembleResponse(root: string, prompts: Directory, parse: Parser, content: string)
    : (r: Result<Response, Exception>)
    ensures r.Success? <==>
      prompts.Listing? && ScanFiles(prompts.entries).Success? && FormatSpecForPrompt(parse, content).Success?
    ensures r.Success? ==>
      prompts.Listing? && r.value == Response(ScanFiles(prompts.entries).value, FormatSpecForPrompt(parse, content).value)
    ensures prompts.Missing? ==> r == Failure(GetPromptsPath(root, prompts).error)
    ensures prompts.Listing? && ScanFiles(prompts.entries).Failure? ==> r == Failure(ScanFiles(prompts.entries).error)
    ensures prompts.Listing? && ScanFiles(prompts.entries).Success? && FormatSpecForPrompt(parse, content).Failure? ==>
      r == Failure(FormatSpecForPrompt(parse, content).error)
  {
    var _ :- GetPromptsPath(root, prompts);
    var components :- ScanFiles(prompts.entries);
    var userSpecPrompt :- FormatSpecForPrompt(parse, content);
    Success(Response(components, userSpecPrompt))
  }

  /** The message the `except` block puts on the context. */
  function InternalDetails(e: Exception): string {
    "An internal error occurred: " + e.detail
  }

  /**
   `GetPromptComponents` as written: the `except` block names `grpc`, which
   this file never imports, so after logging it raises NameError and that
   exception, not an INTERNAL status, leaves the handler.
   */
  function GetPromptComponentsAsWritten(root: string, prompts: Directory, parse: Parser, content: string)
    : (r: Outcome)
    ensures AssembleResponse(root, prompts, parse, content).Failure? ==>
      r == Escaped(NameError("name 'grpc' is not defined"))
  {
    match AssembleResponse(root, prompts, parse, content)
    case Success(response) => Reply(OK, "", response)
    case Failure(_) => Escaped(NameError("name 'grpc' is not defined"))
  }

  /**
   `GetPromptComponents` as evidently intended: a fault anywhere in the `try`
   becomes status INTERNAL, details naming the fault, and an empty response.
   A decode error in the spec is not a fault: it is reported in the summary.
   */
  function GetPromptComponents(root: string, prompts: Directory, parse: Parser, content: string)
    : (r: Outcome)
    ensures r.Reply?
    ensures r.code == OK <==> AssembleResponse(root, prompts, parse, content).Success?
    ensures r.code == INTERNAL ==> r.response == EmptyResponse
    ensures r.code == INTERNAL ==> r.details == InternalDetails(AssembleResponse(root, prompts, parse, content).error)
    ensures prompts.Missing? ==> r.code == INTERNAL
    ensures r.code == OK ==> StartsWith(r.response.userSpecPrompt, Header)
    ensures r.code == OK ==> prompts.Listing?
    ensures r.code == OK ==>
      prompts.Listing? && r.response == Response(ScanFiles(prompts.entries).value, FormatSpecForPrompt(parse, content).value)
    ensures r.code == OK && prompts.Listing? ==>
      forall k :: k in r.response.components <==>
        exists i :: 0 <= i < |prompts.entries| && prompts.entries[i].name == k && prompts.entries[i].kind.RegularFile?
  {
    match AssembleResponse(root, prompts, parse, content)
    case Success(response) => Reply(OK, "", response)
    case Failure(e) => Reply(INTERNAL, InternalDetails(e), EmptyResponse)
  }

  /** A malformed spec never produces an error status: its decode error is reported in the summary. */
  lemma DecodeErrorIsNotInternal(root: string, prompts: Directory, parse: Parser, content: string)
    requires prompts.Listing? && forall i :: 0 <= i < |prompts.entries| && prompts.entries[i].kind.RegularFile? ==> IsReadableFile(prompts.entries[i])
    requires parse(content).Failure? && parse(content).error.TomlDecodeError?
    ensures GetPromptComponents(root, prompts, parse, content).code == OK
    ensures GetPromptComponents(root, prompts, parse, content).response.userSpecPrompt == InvalidTomlNotice
  {
  }

  /**
   The defect: whenever the `try` fails (here, a missing prompts directory)
   the handler as written raises NameError instead of replying INTERNAL.
   */
  lemma AsWrittenLosesInternalStatus(root: string, parse: Parser, content: string)
    ensures GetPromptComponentsAsWritten(root, Missing, parse, content).Escaped?
    ensures GetPromptComponentsAsWritten(root, Missing, parse, content).exception.NameError?
    ensures GetPromptComponents(root, Missing, parse, content).Reply?
    ensures GetPromptComponents(root, Missing, parse, content).code == INTERNAL
  {
  }

  /** Away from faults the two handlers agree. */
  lemma AsWrittenAgreesOnSuccess(root: string, prompts: Directory, parse: Parser, content: string)
    ensures GetPromptComponents(root, prompts, parse, content).code == OK ==>
      GetPromptComponentsAsWritten(root, prompts, parse, content) == GetPromptComponents(root, prompts, parse, content)
  {
  }
}

=== FILE: summary.dfy ===
/**
 The two sentences the boot_python summarisers produce: the composed
 description of a parsed spec, and the fixed fallback used when nothing
 could be read from it.
 */
module Summary {
  import opened PyRuntime

  const Fallback := "User requests a python project. Description: (unavailable)"

  /** `f"User requests a {lang} project named '{name}'. Description: {descr}"`. */
  function Sentence(language: string, name: string, description: string): string {
    "User requests a " + language + " project named '" + name + "'. Description: " + description
  }

  /** The fallback contains no apostrophe; a composed sentence always quotes the name. */
  lemma {:induction false} SentenceIsNeverFallback(language: string, name: string, description: string)
    ensures Sentence(language, name, description) != Fallback
  {
    var s := Sentence(language, name, description);
    var k := |"User requests a "| + |language| + |" project named "|;
    assert s == ("User requests a " + language + " project named ") + "'" + (name + "'. Description: " + description);
    assert s[k] == '\'';
  }

  /** A reader can always find the description label, whichever sentence was produced. */
  lemma {:induction false} SentenceMentionsDescription(language: string, name: string, description: string)
    ensures Contains(Sentence(language, name, description), "Description")
  {
    var s := Sentence(language, name, description);
    var k := |"User requests a "| + |language| + |" project named '"| + |name| + |"'. "|;
    assert s == ("User requests a " + language + " project named '" + name + "'. ") + "Description" + (": " + description);
    ContainsAt(s, "Description", k);
  }

  lemma {:induction false} FallbackMentionsDescription()
    ensures Contains(Fallback, "Description")
  {
    assert Fallback == "User requests a python project. " + "Description" + ": (unavailable)";
    ContainsAt(Fallback, "Description", 32);
  }

  /** The language, name and description all appear in the composed sentence. */
  lemma {:induction false} SentenceMentionsFields(language: string, name: string, description: string)
    ensures Contains(Sentence(language, name, description), language)
    ensures Contains(Sentence(language, name, description), name)
    ensures Contains(Sentence(language, name, description), description)
  {
    var s := Sentence(language, name, description);
    var a := |"User requests a "|;
    var b := a + |language| + |" project named '"|;
    var c := b + |name| + |"'. Description: "|;
    assert s[a..a + |language|] == language;
    assert s[b..b + |name|] == name;
    assert s[c..c + |description|] == description;
    ContainsAt(s, language, a);
    ContainsAt(s, name, b);
    ContainsAt(s, description, c);
  }
}

=== FILE: toml_value.dfy ===
/**
 The parsed form of a TOML document, kept abstract: the parser itself
 (`toml.loads` / `tomllib.loads`) is an oracle, and the plugin only ever
 looks up keys of tables and formats the values it finds.
 */
module TomlValue {
  import opened PyRuntime

  /**
   A value the parser can return. Only strings and tables matter to the
   plugin; every other value (numbers, booleans, dates, arrays) is `Other`.
   Non-string values carry the text Python's `str()` gives them, which is
   what an f-string interpolation writes.
   */
  datatype Value =
    | Str(s: string)
    | Table(entries: map<string, Value>, text: string)
    | Other(typeName: string, text: string)

  /** The parser oracle: a value, or the exception `loads` raised. */
  type Parser = string -> Result<Value, Exception>

  /** The `{}` a `.get(key, {})` default supplies. */
  const EmptyTable: Value := Table(map[], "{}")

  /** Python's type name, as it appears in an AttributeError message. */
  function TypeName(v: Value): string {
    match v
    case Str(_) => "str"
    case Table(_, _) => "dict"
    case Other(t, _) => t
  }

  /** `f"{v}"`: a string is written as is, anything else as its `str()`. */
  function Show(v: Value): string {
    match v
    case Str(s) => s
    case Table(_, t) => t
    case Other(_, t) => t
  }

  /** `container.get(key, default)`: only a dict has `.get`. */
  function Get(container: Value, key: string, default: Value): Result<Value, Exception> {
    match container
    case Table(m, _) => Success(if key in m then m[key] else default)
    case _ => Failure(AttributeError("'" + TypeName(container) + "' object has no attribute 'get'"))
  }

  /** The text a table field contributes to a sentence, or `default` when the key is absent. */
  function FieldOr(entries: map<string, Value>, key: string, default: string): string {
    if key in entries then Show(entries[key]) else default
  }
}
